=== FILE: README.md ===
# Timesheet engine of a field-worker app, in Dafny

This project models the logic of three screens of a React Native timesheet
app and proves properties of that model.

- **Employee dashboard** (`DashboardScreen.jsx`):
  - the catalogue of clock labels offered by the time pickers;
  - the per-date store of entered hours (the `days` object);
  - the rule that decides which dates the date picker accepts;
  - the two multipart bodies the screen sends (save draft, submit);
  - the save-draft and submit transitions, including the cursor date moving
    on after a draft save and the session being dropped on a 401.
- **Registration** (`RegisterScreen.jsx`): the form validator with its
  e-mail pattern, the lower-casing of the address, and the reset after a
  successful registration.
- **Manager dashboard** (`ManagerDashbaordScreen.jsx`):
  - the case-insensitive user search;
  - the two loads with their 401 handling;
  - the empty-list guard of the export and the mapping of records to
    spreadsheet rows.

Every screen action is a pure function. The backend's reply, the current
date, `Date.now()` and the stored token are parameters. Each module:

- `values.dfy` (`Values`): JavaScript values with their truthiness, `||`,
  alerts, and the shape of a backend reply (`Reply`: a reply object or a
  thrown exception).
- `text.dfy` (`Text`): the string built-ins the screens use: `toString`,
  `padStart`, `toLowerCase`, `trim`, `includes`, `split(c)[0]` and
  UTF-16 `length`.
- `calendar.dfy` (`Calendar`): calendar dates, the next day, and the
  `YYYY-MM-DD` text of a date with its inverse.
- `time_slots.dfy` (`TimeSlots`): `generateTimeSlots`.
- `day_store.dfy` (`DayStore`): the `days` object as an insertion-ordered
  association list, and `handleDataChange`.
- `availability.dfy` (`Availability`): `isDateDisabled`.
- `payload.dfy` (`Payload`): the draft and submit bodies as ordered lists of
  `(key, value)` parts. A reference reading groups the bracket keys
  `[date][field]` back into a map. The contents of each body are stated
  through that reading.
- `submission.dfy` (`Submission`): the dashboard state and its transitions.
- `register.dfy` (`Register`): `validateInputs` and `handleRegister`.
- `manager.dfy` (`ManagerDashboard`): `filteredUsers`, `fetchUsers`,
  `fetchExportUsers`, `getTokenAndFetchUsers` and `exportToExcel`.

Three details of the code that are easy to misread:

- The comment above the slot loop speaks of 30-minute steps. The loop steps
  by 10 minutes, so the catalogue has 144 labels.
- The submit loop appends a `date` part once per entry, so n entries carry
  n copies of the cursor's date and an empty store carries none
  (`Submission.SubmitTwoDates`).
- `handleSubmit` checks no dates; only the date picker refuses future and
  uploaded days. `Submit` does the same.

## Model

| member | source | states |
|---|---|---|
| TimeSlots.GenerateTimeSlots | src/screens/DashboardScreen.jsx:31-43 | There are 24·6 = 144 labels, and label i is hour i/6 with minute 10·(i mod 6). Label i reads back as 10·i minutes past midnight, so the labels are in strictly increasing time order and pairwise distinct. |
| TimeSlots.SlotLabelRoundTrip | src/screens/DashboardScreen.jsx:36-38 | Every `h:mm AM/PM` label of an hour below 24 and a minute below 60 reads back as exactly that time of day. The hour is `hour % 12 \|\| 12` and the minutes are padded to two digits. |
| Text.ZeroPaddedValue | src/screens/DashboardScreen.jsx:38 | `padStart(width, '0')` of a number's digits keeps the number's value. |
| Text.DigitValueOfNatDigits | src/screens/DashboardScreen.jsx:38 | The decimal text of a natural number reads back as that number. |
| DayStore.Put | src/screens/DashboardScreen.jsx:112-115 | `{...entry, [field]: v}` reads `v` at `field` and leaves the other three fields as they were. |
| DayStore.PutCommutes | src/screens/DashboardScreen.jsx:112-115 | Writes to two different fields of an entry give the same entry in either order. |
| DayStore.SetField | src/screens/DashboardScreen.jsx:109-117 | After an edit, the object's keys are the same keys in the same order when the date was present; otherwise the date is added as the last key. |
| DayStore.SetFieldKeepsUnique | src/screens/DashboardScreen.jsx:109-117 | An edit never creates a second key for a date. |
| DayStore.SetFieldMapView | src/screens/DashboardScreen.jsx:109-117 | Seen as a map, an edit is one update: date `d` maps to its previous entry (blank if absent) with `field` set to `v`. |
| DayStore.SetFieldFrame | src/screens/DashboardScreen.jsx:109-117 | The written field reads back. The other fields of that date and every other date's entry are unchanged. |
| DayStore.SetFieldCommutes | src/screens/DashboardScreen.jsx:109-117 | Edits of two different fields of the same date commute, key order included. |
| DayStore.SetFieldLastWins | src/screens/DashboardScreen.jsx:109-117 | A second write to the same field replaces the first. |
| Submission.EditField | src/screens/DashboardScreen.jsx:109-117 | `handleDataChange` on the cursor date changes only the store, and only by the single-field map update. |
| Availability.IsDateDisabled | src/screens/DashboardScreen.jsx:265-272 | Future dates are disabled, and so are dates whose text is among the uploaded dates. At midnight, a date is disabled exactly when it is in the future or uploaded. A past date is disabled exactly when it is uploaded. |
| Submission.PickDate | src/screens/DashboardScreen.jsx:285-289 | The picker changes only the cursor, and moves it only to the picked day. It never moves it to a future or uploaded day. A picked midnight of an allowed day is accepted. |
| Calendar.NextDay | src/screens/DashboardScreen.jsx:161-163 | `setDate(getDate() + 1)` gives a later date with no valid date strictly between the two. |
| Calendar.IsoRoundTrip | src/screens/DashboardScreen.jsx:163 | The `YYYY-MM-DD` text of a date reads back as that date. |
| Calendar.IsoInjective | src/screens/DashboardScreen.jsx:159-160 | Two dates have the same `YYYY-MM-DD` text exactly when they are equal, so the string comparison with today compares dates. |
| Calendar.IsoAlphabet | src/screens/DashboardScreen.jsx:105 | The date text holds only digits and `-`, so it contains no `T` and no `]`. |
| Payload.ParseFieldKey | src/screens/DashboardScreen.jsx:134-137 | A bracket key `[YYYY-MM-DD][name]` reads back as its date and field name. |
| Payload.ImageFile | src/screens/DashboardScreen.jsx:141-147 | The image part keeps the picker's uri. Its name is the picker's file name, or `<prefix><now>.jpg` when that is missing or empty. Its type is the picker's type, or `image/jpeg`. |
| Payload.DraftPayloadContents | src/screens/DashboardScreen.jsx:131-147 | The draft body has field sets for the cursor date only, with the time in, time out and total as stored and lunch defaulted to 0 when falsy. It carries one `date` label with the cursor's text, one image part exactly when a photo is attached, and 5 or 6 parts in all. |
| Payload.Rows | src/screens/DashboardScreen.jsx:229-235 | The submit loop emits five parts per entry of the store. |
| Payload.SubmitPayloadContents | src/screens/DashboardScreen.jsx:228-242 | The submit body has a field set for exactly the dates in the store, each holding that date's entry with lunch as stored. The `date` label carries the cursor's text once per entry. There is one image part exactly when a photo is attached, and 5·n parts plus the image in all. |
| Submission.SubmitTwoDates | src/screens/DashboardScreen.jsx:229-235 | Entries for 2024-05-01 and 2024-05-02 give field sets for exactly those two dates and two copies of the cursor's `date` label. |
| Submission.SaveDraft | src/screens/DashboardScreen.jsx:123-178 | A draft is refused unless time in, time out and total are all truthy; a refusal sends nothing and changes nothing. Otherwise the draft body is sent. On success the store and photo are cleared, the cursor moves to the next day unless it is today, and nothing else changes. A 401 drops the session only. Any other failure keeps the state and alerts "Save Failed" with the backend's message as it came; an exception alerts "Save Failed" with "There was an error saving the draft.". The store changes only after a reported success. |
| Submission.Submit | src/screens/DashboardScreen.jsx:221-263 | A submit is refused only when time in, time out and total are all falsy and no photo is attached. Otherwise the whole store is sent. On success the store and photo are cleared, and the cursor never moves. The failure handling is as for a draft, with the title "Upload Failed" and the exception text "There was an error uploading the timesheet.". |
| Submission.RefreshUploaded | src/screens/DashboardScreen.jsx:57-78 | A successful reply replaces the uploaded dates, and a 401 drops the session. Anything else changes nothing. The store, the cursor, the photo and the drafts list are never touched. |
| Submission.RefreshDrafts | src/screens/DashboardScreen.jsx:79-102 | A successful reply replaces the drafts list, and a 401 drops the session. Anything else changes nothing. The store, the cursor, the photo and the uploaded dates are never touched. |
| Submission.RefreshesCommute | src/screens/DashboardScreen.jsx:51-55 | The two refreshes started together give the same state whichever answers first. The session survives exactly when neither reply is a 401. |
| Submission.FilledEntrySaves | src/screens/DashboardScreen.jsx:124-127 | Setting a truthy time in, time out and total on the cursor date makes a draft save send its body. |
| Submission.SubmitLooserThanDraft | src/screens/DashboardScreen.jsx:222-225 | Whenever a draft save would send, a submit would send too. An entry with only a time in is sent by a submit but refused by a draft save. |
| Submission.EmptySubmitRejected | src/screens/DashboardScreen.jsx:222-225 | With an empty store and no photo, a submit only shows the validation alert. |
| Submission.NothingLeftAfterSuccess | src/screens/DashboardScreen.jsx:244-249 | After a successful save or submit, the next submit without a new photo is refused before any call. |
| Payload.ImagePartsAtTwoMoments | src/screens/DashboardScreen.jsx:141-147 | A body built at two moments is identical when there is no photo or the photo has a file name. Otherwise the two bodies differ at most in the photo's name. |
| Submission.RetrySendsSameBody | src/screens/DashboardScreen.jsx:165-177 | After a failure other than 401, a retry at any later moment sends a body exactly when the first attempt did. The body is the same when there is no photo or the photo has a file name. Otherwise only the photo's `Date.now()` name can differ. |
| Submission.DraftWalksToToday | src/screens/DashboardScreen.jsx:158-164 | Saving yesterday's draft moves the cursor to today. A further successful save of a complete entry on today is sent and leaves the cursor there. |
| Submission.DraftScenario | src/screens/DashboardScreen.jsx:151-164 | A complete entry on 2024-05-03, saved successfully while today is 2024-05-10, empties the store and moves the cursor to 2024-05-04. |
| Register.EmailPatternIff | src/screens/RegisterScreen.jsx:21-24 | The pattern `^[^\s@]+@[^\s@]+\.[^\s@]+$` accepts exactly the addresses with no whitespace, a non-empty part before the only `@`, and a `.` in the domain with text on both sides. |
| Register.ValidateInputs | src/screens/RegisterScreen.jsx:15-37 | The form passes exactly when all five fields are non-empty, the address is well formed, the password is at least 8 UTF-16 units long, and the two passwords agree. Otherwise the first failing check in source order names the error. |
| Register.NormalisedEmail | src/screens/RegisterScreen.jsx:43 | For an address the pattern accepts, `toLowerCase().trim()` is just the lower-casing. The result still matches, and normalising again changes nothing. |
| Register.HandleRegister | src/screens/RegisterScreen.jsx:39-62 | An invalid form sends nothing and alerts the validation message. A valid form sends the fields with the address lower-cased, and the address sent is well formed. Only a reported success empties all five fields and goes to the login screen. A failure alerts the backend's message; an exception alerts the generic one. |
| Register.NoSecondRegistration | src/screens/RegisterScreen.jsx:46-53 | After a success, pressing the button again sends nothing and asks for every field. |
| Register.RetrySendsSameRequest | src/screens/RegisterScreen.jsx:54-58 | After a failure the form is kept, so a retry sends the same request. |
| Register.CaseBlindEmail | src/screens/RegisterScreen.jsx:43 | Addresses differing only in letter case send the same request. |
| Text.TrimNoWhitespace | src/screens/RegisterScreen.jsx:43 | `trim` leaves a string without whitespace unchanged. |
| Text.ContainsIffOccurs | src/screens/ManagerDashbaordScreen.jsx:74-75 | `includes` holds exactly when the needle occurs at some position of the text. |
| ManagerDashboard.FilterUsers | src/screens/ManagerDashbaordScreen.jsx:73-76 | The search keeps an order-preserving subsequence of the users. Every kept user matches the name or address ignoring case. Each matching user is kept as often as it occurs, and no other user is kept. |
| ManagerDashboard.FilterEmptySearch | src/screens/ManagerDashbaordScreen.jsx:73-76 | An empty search keeps every user. |
| ManagerDashboard.FilterIgnoresCase | src/screens/ManagerDashbaordScreen.jsx:73-76 | Searches differing only in letter case keep the same users. |
| ManagerDashboard.Failed | src/screens/ManagerDashbaordScreen.jsx:42-49 | A failed load records the reply's message as the error and stops loading. A 401 also wipes storage and ends the session without an alert; any other failure alerts the message. |
| ManagerDashboard.FetchUsers | src/screens/ManagerDashbaordScreen.jsx:37-52 | With no token, or when the call throws, nothing changes. A success stores the user list. A failure keeps the list and records the message. The session ends exactly on a 401. The export list is never touched. |
| ManagerDashboard.FetchExportUsers | src/screens/ManagerDashbaordScreen.jsx:54-69 | As the user load, but for the export list; the user list is never touched. |
| ManagerDashboard.LoadDashboard | src/screens/ManagerDashbaordScreen.jsx:20-35 | A failed token read and a missing token each record their own error and stop loading. With a token, each successful load fills its list. |
| ManagerDashboard.LoadsCommute | src/screens/ManagerDashbaordScreen.jsx:24-25 | Whichever of the two loads answers first, both lists, the session and the loading flag end up the same. The error text can differ only when both report failure. |
| ManagerDashboard.Cell | src/screens/ManagerDashbaordScreen.jsx:159-167 | `v \|\| "N.A"` is always truthy. It is `v` when `v` is truthy and "N.A" otherwise. |
| ManagerDashboard.DateCellAsWritten | src/screens/ManagerDashbaordScreen.jsx:158 | The first column as written throws exactly when a non-null record's `date_submitted` is not a string. |
| ManagerDashboard.DateCell | src/screens/ManagerDashbaordScreen.jsx:158 | The corrected first column is the text before the first `T`, or "N.A" when that is empty or there is no string; it is always truthy. |
| ManagerDashboard.DateCellAgrees | src/screens/ManagerDashbaordScreen.jsx:158 | Wherever the written column does not throw, it equals the corrected one. |
| ManagerDashboard.DateCellOfTimestamp | src/screens/ManagerDashbaordScreen.jsx:158 | A timestamp `YYYY-MM-DDT…` exports as its calendar date. |
| ManagerDashboard.RowOf | src/screens/ManagerDashbaordScreen.jsx:157-168 | A row has the ten headers in order. Every cell is truthy, the first is the date cell, and each other cell is its field or "N.A". A null record gives "N.A" everywhere. |
| ManagerDashboard.ExportRowsAsWritten | src/screens/ManagerDashbaordScreen.jsx:157-168 | The written mapping completes exactly when no record's date makes it throw. |
| ManagerDashboard.ExportRows | src/screens/ManagerDashbaordScreen.jsx:157-168 | The corrected mapping gives one row per record, in order. |
| ManagerDashboard.ExportRowsAgree | src/screens/ManagerDashbaordScreen.jsx:157-168 | Wherever the written mapping completes, it gives the corrected rows. |
| ManagerDashboard.MissingDateAbortsExport | src/screens/ManagerDashbaordScreen.jsx:158 | One record without `date_submitted` makes the written export abort with no sheet, while the corrected export produces the sheet and shows "N.A" for it. |
| ManagerDashboard.ExportToExcel | src/screens/ManagerDashbaordScreen.jsx:136-168 | An empty list only alerts "No data", and declining the confirmation does nothing. A confirmed export aborts exactly when some record's date makes the first column throw. Otherwise the sheet "Users" gets one row per record, with the ten headers and only truthy cells; its rows are exactly the corrected rows, since no date threw. |
| ManagerDashboard.ExportToExcelCorrected | src/screens/ManagerDashbaordScreen.jsx:136-168 | With the corrected first column, a confirmed export of a non-empty list never aborts and always yields the sheet. |
| ManagerDashboard.ExportAgrees | src/screens/ManagerDashbaordScreen.jsx:157-168 | Wherever the written export does not abort, it gives the same outcome as the corrected one. |
| ManagerDashboard.ExportKeepsValues | src/screens/ManagerDashbaordScreen.jsx:159-167 | On a sheet the written export produces, a truthy field reaches its cell unchanged, and any other field reads "N.A". |

## Left out

- Rendering, modals, pickers, styles and navigation are not modelled. The move to the login screen is only a flag.
- AsyncStorage, the `api` module and the image and camera pickers are not modelled. Their results are parameters, and the `api` module is not part of this model.
- The drafts list that `fetchDraftData` fills is only displayed; `Submission.RefreshDrafts` keeps it as an opaque JavaScript value.
- XLSX workbook generation and the RNFS file writes (ManagerDashbaordScreen.jsx:170-200) are foreign libraries and file I/O. `ExportToExcel` stops at the rows of the sheet.
- JavaScript `Date` semantics are not modelled. `toISOString` works in UTC while `isDateDisabled` compares against local midnight. The model uses calendar days, with a millisecond offset for the picker's instant, and today is a parameter.
- Calendar.NextDay: the screen advances the cursor with `setDate(getDate() + 1)` on a `Date` parsed as UTC midnight and reads it back with `toISOString`. In any time zone that observes daylight saving, on the day the clocks go forward (e.g. America/New_York 2024-03-10, Europe/Berlin 2024-03-31), the advanced `Date` is 23:00 UTC of the same day and reads back as that same date. `Calendar.NextDay` is the calendar successor and does not model that case.
- `toISOString` writes years above 9999 in a six-digit extended form; `Calendar.Iso` pads to four digits and does not model that form.
- `Number(text)` parsing of the total-hours box is not modelled. Field values arrive as JavaScript values.
- `Text.Lower` lower-cases the ASCII letters only. `toLowerCase` also maps other scripts, which affects the search and the address sent for non-ASCII input.
- The `loading` and `draftLoading` flags of the dashboard and registration screens, and re-entrant presses, are not modelled. The manager screen's `loading` flag is modelled.
- The login, forgot-password, user-details and weekly-summary screens and `App.tsx` routing are not modelled.
- ManagerDashboard.FetchUsers: a successful reply whose `data.users` is missing would leave `users` undefined and make the filter throw. The model's reply always carries a list.
- ManagerDashboard.Matches: a user whose `full_name` or `email` is null would make the filter throw. The model's users always have both strings.
- ManagerDashboard.FetchUsers: an exception from the call is not caught by the screen. It is modelled as no state change, and the unhandled rejection itself is not modelled.
- ManagerDashboard.FetchExportUsers: a successful reply without `data.rows` would store undefined, and the next export would throw on `exportData.length` instead of alerting "No data". The model's reply always carries a list.
- ManagerDashboard.FetchExportUsers: an exception from the call is not caught by the screen. It is modelled as no state change, and the unhandled rejection itself is not modelled.
- Payload.FieldParts: `FormData.append` sends `String(v)` for a part that is not a file, so an unset field goes out as the text "undefined" (and 0 as "0"). The model keeps the JavaScript value and does not model that conversion.
- Payload.ReadFields is a reference reading of bracket keys, used to state what the bodies carry. The backend's actual multipart parser is not part of this model.

## Findings

| source | as written | input that shows it | evidently intended | confidence | as-written member | corrected member |
|---|---|---|---|---|---|---|
| src/screens/ManagerDashbaordScreen.jsx:158 | `user?.date_submitted.split('T')[0]`: the `?.` guards only `user`, so a record whose `date_submitted` is missing, null or not a string throws a TypeError inside the export handler, and no file is written | an export list holding one record with every field but `date_submitted` | the first column falls back to "N.A" like the other nine (`user?.date_submitted?.split('T')[0] \|\| "N.A"`) | not executed; follows from the optional-chaining rules | ManagerDashboard.ExportToExcel, ManagerDashboard.MissingDateAbortsExport | ManagerDashboard.ExportToExcelCorrected, ManagerDashboard.ExportAgrees |

=== FILE: availability.dfy ===
/** Which dates the date picker lets the user choose: `isDateDisabled`. */
module Availability {
  import opened Calendar

  /** A JavaScript `Date` object: a calendar day and the milliseconds since
      its midnight. */
  datatype Instant = Instant(date: Date, msOfDay: nat)

  /** `new Date(iso)` for a `YYYY-MM-DD` string, and `today` after
      `setHours(0, 0, 0, 0)`. */
  function Midnight(d: Date): Instant {
    Instant(d, 0)
  }

  /** `a > b` on `Date` objects. */
  predicate Later(a: Instant, b: Instant) {
    Before(b.date, a.date) || (a.date == b.date && a.msOfDay > b.msOfDay)
  }

  /** `isDateDisabled(date)`: the instant lies after today's midnight, or
      its day's text is among the dates the backend reports as uploaded.
      At day granularity, which is how the cursor date is checked, a date is
      disabled exactly when it is in the future or already uploaded; an
      instant later than midnight on today's date also counts as after
      today. */
  function IsDateDisabled(i: Instant, today: Date, uploaded: seq<string>): (r: bool)
    ensures Before(today, i.date) ==> r
    ensures Iso(i.date) in uploaded ==> r
    ensures i.msOfDay == 0 ==> (r <==> Before(today, i.date) || Iso(i.date) in uploaded)
    ensures i.date == today && i.msOfDay > 0 ==> r
    ensures Before(i.date, today) ==> (r <==> Iso(i.date) in uploaded)
  {
    Later(i, Midnight(today)) || Iso(i.date) in uploaded
  }
}

=== FILE: calendar.dfy ===
/** Calendar dates as the dashboard handles them: the `YYYY-MM-DD` text that
    `toISOString().split('T')[0]` produces, its inverse, the calendar order
    and the one-day advance `setDate(getDate() + 1)`. */
module Calendar {
  import opened Values
  import opened Text

  datatype CalDate = CalDate(year: nat, month: nat, day: nat)

  predicate IsLeapYear(y: nat) {
    (y % 4 == 0 && y % 100 != 0) || y % 400 == 0
  }

  function DaysInMonth(y: nat, m: nat): (n: nat)
    requires 1 <= m <= 12
    ensures 28 <= n <= 31
  {
    if m == 2 then (if IsLeapYear(y) then 29 else 28)
    else if m == 4 || m == 6 || m == 9 || m == 11 then 30
    else 31
  }

  predicate IsValid(d: CalDate) {
    1 <= d.month <= 12 && 1 <= d.day <= DaysInMonth(d.year, d.month)
  }

  /** A day of the proleptic Gregorian calendar. */
  type Date = d: CalDate | IsValid(d) witness CalDate(1970, 1, 1)

  /** Strict calendar order. */
  predicate Before(a: CalDate, b: CalDate) {
    || a.year < b.year
    || (a.year == b.year && a.month < b.month)
    || (a.year == b.year && a.month == b.month && a.day < b.day)
  }

  /** The day after `d`: the next day of the month, else the first of the
      next month, else the first of January of the next year. */
  function NextDay(d: Date): (r: Date)
    ensures Before(d, r)
    ensures forall x: Date {:trigger Before(d, x)} :: Before(d, x) ==> x == r || Before(r, x)
  {
    if d.day < DaysInMonth(d.year, d.month) then CalDate(d.year, d.month, d.day + 1)
    else if d.month < 12 then CalDate(d.year, d.month + 1, 1)
    else CalDate(d.year + 1, 1, 1)
  }

  /** The `YYYY-MM-DD` text of a date, four-digit year and two-digit month
      and day, all zero-padded. */
  function Iso(d: CalDate): (s: string)
  {
    ZeroPadded(d.year, 4) + "-" + ZeroPadded(d.month, 2) + "-" + ZeroPadded(d.day, 2)
  }

  /** Reads `YYYY-MM-DD` back: digits, a dash, two digits, a dash, two
      digits, naming a real calendar day. */
  function ParseIso(s: string): (r: Option<Date>)
    ensures r.Some? ==> 7 <= |s|
  {
    if |s| < 7 then None
    else
      var n := |s|;
      var y, m, d := s[..n - 6], s[n - 5..n - 3], s[n - 2..];
      if s[n - 6] == '-' && s[n - 3] == '-' && AllDigits(y) && AllDigits(m) && AllDigits(d) then
        var c := CalDate(DigitValue(y), DigitValue(m), DigitValue(d));
        if IsValid(c) then Some(c) else None
      else None
  }

  /** Reading back the text of a date gives the date. */
  lemma IsoRoundTrip(d: Date)
    ensures ParseIso(Iso(d)) == Some(d)
  {
    var y, m, dd := ZeroPadded(d.year, 4), ZeroPadded(d.month, 2), ZeroPadded(d.day, 2);
    ZeroPaddedTwo(d.month);
    ZeroPaddedTwo(d.day);
    ZeroPaddedValue(d.year, 4);
    ZeroPaddedValue(d.month, 2);
    ZeroPaddedValue(d.day, 2);
    var s := Iso(d);
    var n := |s|;
    assert n == |y| + 6;
    assert s[..n - 6] == y;
    assert s[n - 5..n - 3] == m;
    assert s[n - 2..] == dd;
  }

  /** Two dates with the same text are the same date, so comparing the
      strings, as the dashboard screen does, compares the dates. */
  lemma IsoInjective(a: Date, b: Date)
    ensures Iso(a) == Iso(b) <==> a == b
  {
    if Iso(a) == Iso(b) {
      IsoRoundTrip(a);
      IsoRoundTrip(b);
    }
  }

  /** The text of a date holds only digits and dashes. */
  lemma IsoAlphabet(d: CalDate)
    ensures forall i :: 0 <= i < |Iso(d)| ==> IsDigit(Iso(d)[i]) || Iso(d)[i] == '-'
  {
    var y, m, dd := ZeroPadded(d.year, 4), ZeroPadded(d.month, 2), ZeroPadded(d.day, 2);
    var s := Iso(d);
    forall i | 0 <= i < |s|
      ensures IsDigit(s[i]) || s[i] == '-'
    {
      if i < |y| {
        assert s[i] == y[i];
      } else if i == |y| {
      } else if i < |y| + 1 + |m| {
        assert s[i] == m[i - |y| - 1];
      } else if i == |y| + 1 + |m| {
      } else {
        assert s[i] == dd[i - |y| - 2 - |m|];
      }
    }
  }
}

=== FILE: day_store.dfy ===
/** The per-date record store of the dashboard: the `days` object mapping an
    ISO date to the fields entered for that date. A JavaScript object keeps
    its string keys in insertion order, and the submit payload walks them in
    that order, so the store is an association list; `AsMap` is its map
    view. */
module DayStore {
  import opened Values
  import opened Calendar

  /** The four fields the dashboard writes into an entry. */
  datatype Field = TimeIn | TimeOut | Lunch | TotalHours

  /** One date's entry. A field never written reads as `undefined`. The
      pickers store a clock label for the times and a number of minutes for
      lunch; the total-hours box stores `Number(text)`. */
  datatype DayEntry = DayEntry(timeIn: Value, timeOut: Value, lunch: Value, totalHours: Value)

  /** The entry of a date that was never edited: `{...undefined}`. */
  const Blank: DayEntry := DayEntry(Undefined, Undefined, Undefined, Undefined)

  function Get(e: DayEntry, f: Field): Value {
    match f
    case TimeIn => e.timeIn
    case TimeOut => e.timeOut
    case Lunch => e.lunch
    case TotalHours => e.totalHours
  }

  /** `{...e, [f]: v}`. */
  function Put(e: DayEntry, f: Field, v: Value): (r: DayEntry)
    ensures Get(r, f) == v
    ensures forall g :: g != f ==> Get(r, g) == Get(e, g)
  {
    match f
    case TimeIn => e.(timeIn := v)
    case TimeOut => e.(timeOut := v)
    case Lunch => e.(lunch := v)
    case TotalHours => e.(totalHours := v)
  }

  /** Writes to two different fields can be done in either order. */
  lemma PutCommutes(e: DayEntry, f: Field, v: Value, g: Field, w: Value)
    requires f != g
    ensures Put(Put(e, f, v), g, w) == Put(Put(e, g, w), f, v)
  {
  }

  /** The `days` object, key order included. */
  type Days = seq<(Date, DayEntry)>

  /** `Object.keys(days)`. */
  function Dates(days: Days): (r: seq<Date>)
    ensures |r| == |days|
    ensures forall i :: 0 <= i < |days| ==> r[i] == days[i].0
  {
    if days == [] then [] else [days[0].0] + Dates(days[1..])
  }

  /** An object has each key once. */
  predicate UniqueDates(days: Days) {
    forall i, j :: 0 <= i < j < |days| ==> days[i].0 != days[j].0
  }

  /** The map view of the store. */
  function AsMap(days: Days): (m: map<Date, DayEntry>)
    ensures forall d :: d in m <==> d in Dates(days)
  {
    if days == [] then map[] else AsMap(days[1..])[days[0].0 := days[0].1]
  }

  /** `days[d]`, read through `?.`: a date never edited reads as blank. */
  function EntryOf(days: Days, d: Date): DayEntry {
    var m := AsMap(days);
    if d in m then m[d] else Blank
  }

  /** `handleDataChange(f, v)` with `currentDate == d`:
      `{...days, [d]: {...days[d], [f]: v}}`. In the map view only the field
      `f` of date `d` changes; an existing date keeps its place among the
      keys and a new one is added last. */
  function SetField(days: Days, d: Date, f: Field, v: Value): (r: Days)
    ensures Dates(r) == if d in Dates(days) then Dates(days) else Dates(days) + [d]
    decreases |days|
  {
    if days == [] then [(d, Put(Blank, f, v))]
    else if days[0].0 == d then
      var r := [(d, Put(days[0].1, f, v))] + days[1..];
      assert r[1..] == days[1..];
      r
    else
      var rest := SetField(days[1..], d, f, v);
      assert ([days[0]] + rest)[1..] == rest;
      assert Dates(days) == [days[0].0] + Dates(days[1..]);
      [days[0]] + rest
  }

  /** An edit keeps every key of the object distinct. */
  lemma SetFieldKeepsUnique(days: Days, d: Date, f: Field, v: Value)
    requires UniqueDates(days)
    ensures UniqueDates(SetField(days, d, f, v))
  {
    var r := SetField(days, d, f, v);
    assert forall i :: 0 <= i < |r| ==> r[i].0 == Dates(r)[i];
    assert forall i :: 0 <= i < |days| ==> days[i].0 == Dates(days)[i];
  }

  /** In the map view, `handleDataChange` is a single map update. */
  lemma {:induction false} SetFieldMapView(days: Days, d: Date, f: Field, v: Value)
    ensures AsMap(SetField(days, d, f, v)) == AsMap(days)[d := Put(EntryOf(days, d), f, v)]
    decreases |days|
  {
    var r := SetField(days, d, f, v);
    if days != [] {
      var k, e := days[0].0, days[0].1;
      var rest := AsMap(days[1..]);
      if k == d {
        assert r[1..] == days[1..];
        assert EntryOf(days, d) == e;
        assert AsMap(r) == rest[d := Put(e, f, v)];
        MapOverride(rest, d, e, Put(e, f, v));
      } else {
        SetFieldMapView(days[1..], d, f, v);
        assert r[1..] == SetField(days[1..], d, f, v);
        var x := Put(EntryOf(days[1..], d), f, v);
        assert EntryOf(days, d) == EntryOf(days[1..], d);
        assert AsMap(r) == rest[d := x][k := e];
        MapSwap(rest, d, x, k, e);
      }
    }
  }

  lemma MapOverride<K, V>(m: map<K, V>, k: K, a: V, b: V)
    ensures m[k := a][k := b] == m[k := b]
  {
  }

  lemma MapSwap<K, V>(m: map<K, V>, k1: K, a: V, k2: K, b: V)
    requires k1 != k2
    ensures m[k1 := a][k2 := b] == m[k2 := b][k1 := a]
  {
  }

  /** The field just written reads back; every other field of that date and
      every other date's entry is as it was. */
  lemma SetFieldFrame(days: Days, d: Date, f: Field, v: Value)
    ensures Get(EntryOf(SetField(days, d, f, v), d), f) == v
    ensures forall g :: g != f ==> Get(EntryOf(SetField(days, d, f, v), d), g) == Get(EntryOf(days, d), g)
    ensures forall x :: x != d ==> EntryOf(SetField(days, d, f, v), x) == EntryOf(days, x)
  {
    SetFieldMapView(days, d, f, v);
  }

  /** Edits of two different fields of the same date commute. */
  lemma {:induction false} SetFieldCommutes(days: Days, d: Date, f: Field, v: Value, g: Field, w: Value)
    requires f != g
    ensures SetField(SetField(days, d, f, v), d, g, w) == SetField(SetField(days, d, g, w), d, f, v)
    decreases |days|, 1
  {
    if days == [] {
      PutCommutes(Blank, f, v, g, w);
    } else if days[0].0 == d {
      PutCommutes(days[0].1, f, v, g, w);
    } else {
      SetFieldCommutesPast(days, d, f, v, g, w);
    }
  }

  /** The inductive step: the first key is another date and stays first. */
  lemma {:induction false} SetFieldCommutesPast(days: Days, d: Date, f: Field, v: Value, g: Field, w: Value)
    requires f != g && days != [] && days[0].0 != d
    ensures SetField(SetField(days, d, f, v), d, g, w) == SetField(SetField(days, d, g, w), d, f, v)
    decreases |days|, 0
  {
    var rest := days[1..];
    SetFieldCommutes(rest, d, f, v, g, w);
    var a, b := SetField(rest, d, f, v), SetField(rest, d, g, w);
    assert SetField(days, d, f, v) == [days[0]] + a;
    assert SetField(days, d, g, w) == [days[0]] + b;
    assert ([days[0]] + a)[1..] == a;
    assert ([days[0]] + b)[1..] == b;
  }

  /** A second write to the same field replaces the first. */
  lemma {:induction false} SetFieldLastWins(days: Days, d: Date, f: Field, v: Value, w: Value)
    ensures SetField(SetField(days, d, f, v), d, f, w) == SetField(days, d, f, w)
    decreases |days|
  {
    if days != [] && days[0].0 != d {
      SetFieldLastWins(days[1..], d, f, v, w);
      assert SetField(days, d, f, v)[1..] == SetField(days[1..], d, f, v);
    }
  }
}

=== FILE: manager.dfy ===
/** The manager's dashboard: the user list with its search box, the two
    loads that fill it, and the spreadsheet rows of the export. */
module ManagerDashboard {
  import opened Values
  import opened Text
  import opened Calendar

  /** A row of the user list. */
  datatype User = User(fullName: string, email: string)

  // ---------------------------------------------------------------------
  // Searching

  /** A user is shown when the search text, ignoring case, occurs in the
      full name or in the address. */
  predicate Matches(u: User, search: string) {
    Contains(Lower(u.fullName), Lower(search)) || Contains(Lower(u.email), Lower(search))
  }

  /** `xs` is `ys` with some elements left out. */
  predicate SubsequenceOf<T(==)>(xs: seq<T>, ys: seq<T>)
    decreases |ys|
  {
    if xs == [] then true
    else if ys == [] then false
    else if xs[0] == ys[0] then SubsequenceOf(xs[1..], ys[1..])
    else SubsequenceOf(xs, ys[1..])
  }

  /** `filteredUsers`: the matching users, in list order, each as often as
      it occurs in the list. */
  function FilterUsers(users: seq<User>, search: string): (r: seq<User>)
    ensures forall k :: 0 <= k < |r| ==> Matches(r[k], search)
    ensures forall u :: multiset(r)[u] == if Matches(u, search) then multiset(users)[u] else 0
    ensures SubsequenceOf(r, users)
  {
    if users == [] then []
    else
      var rest := FilterUsers(users[1..], search);
      assert users == [users[0]] + users[1..];
      if Matches(users[0], search) then
        assert ([users[0]] + rest)[1..] == rest;
        [users[0]] + rest
      else rest
  }

  /** An empty search box shows everybody. */
  lemma {:induction false} FilterEmptySearch(users: seq<User>)
    ensures FilterUsers(users, "") == users
  {
    if users != [] {
      ContainsEmpty(Lower(users[0].fullName));
      FilterEmptySearch(users[1..]);
    }
  }

  /** Search texts that differ only in the case of their letters show the
      same users. */
  lemma {:induction false} FilterIgnoresCase(users: seq<User>, a: string, b: string)
    requires Lower(a) == Lower(b)
    ensures FilterUsers(users, a) == FilterUsers(users, b)
  {
    if users != [] {
      FilterIgnoresCase(users[1..], a, b);
    }
  }

  // ---------------------------------------------------------------------
  // Loading

  /** One record of the export list. The backend may send `null` in the
      list, hence `Option`. */
  datatype ExportRecord = ExportRecord(
    dateSubmitted: Value, name: Value, email: Value, dateWorked: Value, timeIn: Value,
    timeOut: Value, lunch: Value, totalDailyHours: Value, approveReject: Value,
    aiDiscrepancyDetected: Value)

  datatype ManagerState = ManagerState(
    users: seq<User>, exportData: seq<Option<ExportRecord>>, error: Option<string>,
    loading: bool, session: bool)

  /** A state change together with the alerts shown and whether the stored
      session was wiped. */
  datatype Effect = Effect(state: ManagerState, alerts: seq<Alert>, storageCleared: bool)

  /** `if (token)`: a stored token that is neither missing nor empty. */
  predicate HasToken(token: Option<string>) {
    token.Some? && token.value != ""
  }

  /** The failure branch both loads share: a 401 wipes the storage and ends
      the session without an alert, anything else alerts; either way the
      reply's message becomes the screen's error. */
  function Failed(s: ManagerState, status: Option<int>, message: Option<string>): (r: Effect)
    ensures r.state == s.(error := message, loading := false, session := s.session && status != Some(Unauthorized))
    ensures r.storageCleared <==> status == Some(Unauthorized)
    ensures r.alerts == if status == Some(Unauthorized) then [] else [Alert("Error", message)]
  {
    if status == Some(Unauthorized) then
      Effect(s.(error := message, loading := false, session := false), [], true)
    else
      Effect(s.(error := message, loading := false), [Alert("Error", message)], false)
  }

  /** `fetchUsers`. A transport exception is not caught, so nothing after the
      call happens. */
  function FetchUsers(s: ManagerState, token: Option<string>, reply: Reply<seq<User>>): (r: Effect)
    ensures !HasToken(token) || reply.Threw? ==> r == Effect(s, [], false)
    ensures r.state.exportData == s.exportData
    ensures HasToken(token) && reply.Replied? && reply.success ==>
      r == Effect(s.(users := reply.data, loading := false), [], false)
    ensures HasToken(token) && reply.Replied? && !reply.success ==>
      r.state.users == s.users && r.state.error == reply.message && !r.state.loading
    ensures !r.state.session <==> !s.session || (HasToken(token) && IsUnauthorized(reply))
  {
    if !HasToken(token) then Effect(s, [], false)
    else match reply
      case Threw => Effect(s, [], false)
      case Replied(success, status, message, data) =>
        if success then Effect(s.(users := data, loading := false), [], false)
        else Failed(s, status, message)
  }

  /** `fetchExportUsers`: the same shape, filling the export list. */
  function FetchExportUsers(s: ManagerState, token: Option<string>, reply: Reply<seq<Option<ExportRecord>>>): (r: Effect)
    ensures !HasToken(token) || reply.Threw? ==> r == Effect(s, [], false)
    ensures r.state.users == s.users
    ensures HasToken(token) && reply.Replied? && reply.success ==>
      r == Effect(s.(exportData := reply.data, loading := false), [], false)
    ensures HasToken(token) && reply.Replied? && !reply.success ==>
      r.state.exportData == s.exportData && r.state.error == reply.message && !r.state.loading
    ensures !r.state.session <==> !s.session || (HasToken(token) && IsUnauthorized(reply))
  {
    if !HasToken(token) then Effect(s, [], false)
    else match reply
      case Threw => Effect(s, [], false)
      case Replied(success, status, message, data) =>
        if success then Effect(s.(exportData := data, loading := false), [], false)
        else Failed(s, status, message)
  }

  /** The outcome of reading the stored token. */
  datatype TokenRead = Stored(token: Option<string>) | ReadFailed

  /** `getTokenAndFetchUsers`, with the user list answering first. */
  function LoadDashboard(s: ManagerState, read: TokenRead, users: Reply<seq<User>>,
                         rows: Reply<seq<Option<ExportRecord>>>): (r: Effect)
    ensures read.ReadFailed? ==>
      r == Effect(s.(error := Some("Failed to get access token"), loading := false), [], false)
    ensures read.Stored? && !HasToken(read.token) ==>
      r == Effect(s.(error := Some("User not authenticated"), loading := false), [], false)
    ensures read.Stored? && HasToken(read.token) && users.Replied? && users.success ==> r.state.users == users.data
    ensures read.Stored? && HasToken(read.token) && rows.Replied? && rows.success ==> r.state.exportData == rows.data
  {
    match read
    case ReadFailed => Effect(s.(error := Some("Failed to get access token"), loading := false), [], false)
    case Stored(token) =>
      if !HasToken(token) then Effect(s.(error := Some("User not authenticated"), loading := false), [], false)
      else
        var a := FetchUsers(s, token, users);
        var b := FetchExportUsers(a.state, token, rows);
        Effect(b.state, a.alerts + b.alerts, a.storageCleared || b.storageCleared)
  }

  /** The two loads run side by side. Whichever answers first, both lists,
      the session and the loading flag end up the same; only the error text
      can differ, and only when both replies report failure. */
  lemma LoadsCommute(s: ManagerState, token: Option<string>, users: Reply<seq<User>>,
                     rows: Reply<seq<Option<ExportRecord>>>)
    ensures var x := FetchExportUsers(FetchUsers(s, token, users).state, token, rows).state;
      var y := FetchUsers(FetchExportUsers(s, token, rows).state, token, users).state;
      x.users == y.users && x.exportData == y.exportData && x.session == y.session && x.loading == y.loading
      && (!(users.Replied? && !users.success && rows.Replied? && !rows.success) ==> x.error == y.error)
  {
  }

  // ---------------------------------------------------------------------
  // Exporting

  /** The spreadsheet's column titles, in the order of the row objects'
      keys. */
  const Headers: seq<string> := [
    "Date Submitted", "Name", "Email", "Date Worked", "Time In", "Time Out",
    "Lunch", "Total Daily Hours", "Approve/Reject", "AI Discrepancy Detected (Y/N)"]

  const NotAvailable: Value := Str("N.A")

  /** `v || "N.A"`. */
  function Cell(v: Value): (c: Value)
    ensures Truthy(c)
    ensures Truthy(v) ==> c == v
    ensures !Truthy(v) ==> c == NotAvailable
  {
    Or(v, NotAvailable)
  }

  /** The nine columns after the first, read through `user?.`: a `null`
      record reads as undefined everywhere. */
  function Columns(rec: Option<ExportRecord>): (vs: seq<Value>)
    ensures |vs| == 9
  {
    match rec
    case None => seq(9, _ => Undefined)
    case Some(u) => [u.name, u.email, u.dateWorked, u.timeIn, u.timeOut, u.lunch,
                     u.totalDailyHours, u.approveReject, u.aiDiscrepancyDetected]
  }

  /** The first column as the screen computes it:
      `user?.date_submitted.split('T')[0] || "N.A"`. A `null` record
      short-circuits the whole chain to undefined; a record whose
      `date_submitted` is not a string throws a `TypeError`, modelled as
      `None`. */
  function DateCellAsWritten(rec: Option<ExportRecord>): (c: Option<Value>)
    ensures c.None? <==> rec.Some? && !rec.value.dateSubmitted.Str?
  {
    match rec
    case None => Some(Cell(Undefined))
    case Some(u) =>
      match u.dateSubmitted
      case Str(t) => Some(Cell(Str(BeforeFirst(t, 'T'))))
      case _ => None
  }

  /** The first column as evidently intended, with `?.` before `split`: the
      part of the timestamp before its `T`, or "N.A" when there is no
      string to split. */
  function DateCell(rec: Option<ExportRecord>): (c: Value)
    ensures Truthy(c)
    ensures rec.Some? && rec.value.dateSubmitted.Str? ==>
      var t := rec.value.dateSubmitted.s;
      var day := BeforeFirst(t, 'T');
      c == (if day == "" then NotAvailable else Str(day))
    ensures !(rec.Some? && rec.value.dateSubmitted.Str?) ==> c == NotAvailable
  {
    if rec.Some? && rec.value.dateSubmitted.Str? then Cell(Str(BeforeFirst(rec.value.dateSubmitted.s, 'T')))
    else NotAvailable
  }

  /** Where the screen does not throw, it agrees with the corrected cell. */
  lemma DateCellAgrees(rec: Option<ExportRecord>)
    ensures DateCellAsWritten(rec).Some? ==> DateCellAsWritten(rec) == Some(DateCell(rec))
  {
  }

  /** A backend timestamp `YYYY-MM-DDT...` exports as its calendar date. */
  lemma DateCellOfTimestamp(u: ExportRecord, d: Date, time: string)
    requires u.dateSubmitted == Str(Iso(d) + "T" + time)
    ensures DateCell(Some(u)) == Str(Iso(d))
  {
    IsoAlphabet(d);
    BeforeFirstAt(Iso(d), "T" + time, 'T');
    assert Iso(d) + "T" + time == Iso(d) + ("T" + time);
  }

  type Row = seq<(string, Value)>

  /** One spreadsheet row: every header with its cell. */
  function RowOf(rec: Option<ExportRecord>): (row: Row)
    ensures |row| == |Headers|
    ensures forall k :: 0 <= k < |row| ==> row[k].0 == Headers[k] && Truthy(row[k].1)
    ensures row[0].1 == DateCell(rec)
    ensures forall k :: 1 <= k < |row| ==> row[k].1 == Cell(Columns(rec)[k - 1])
  {
    var cells := [DateCell(rec)] + seq(9, k requires 0 <= k < 9 => Cell(Columns(rec)[k]));
    seq(|Headers|, k requires 0 <= k < |Headers| => (Headers[k], cells[k]))
  }

  /** `exportData.map(...)` as written: the whole export throws as soon as
      one record's date is not a string. */
  function ExportRowsAsWritten(data: seq<Option<ExportRecord>>): (r: Option<seq<Row>>)
    ensures r.Some? <==> forall i :: 0 <= i < |data| ==> DateCellAsWritten(data[i]).Some?
  {
    if data == [] then Some([])
    else
      match (DateCellAsWritten(data[0]), ExportRowsAsWritten(data[1..]))
      case (Some(_), Some(rest)) => Some([RowOf(data[0])] + rest)
      case _ => None
  }

  /** `exportData.map(...)` with the corrected first column. */
  function ExportRows(data: seq<Option<ExportRecord>>): (rows: seq<Row>)
    ensures |rows| == |data|
    ensures forall i :: 0 <= i < |data| ==> rows[i] == RowOf(data[i])
  {
    seq(|data|, i requires 0 <= i < |data| => RowOf(data[i]))
  }

  /** Wherever the written map completes, it yields the corrected rows. */
  lemma {:induction false} ExportRowsAgree(data: seq<Option<ExportRecord>>)
    ensures ExportRowsAsWritten(data).Some? ==> ExportRowsAsWritten(data) == Some(ExportRows(data))
  {
    if data != [] {
      ExportRowsAgree(data[1..]);
      var rest := ExportRows(data[1..]);
      assert ExportRows(data) == [RowOf(data[0])] + rest;
    }
  }

  /** A record without `date_submitted` makes the written export throw,
      while every other missing field only reads "N.A". */
  lemma MissingDateAbortsExport()
    ensures var u := ExportRecord(Undefined, Str("Ann"), Str("ann@example.com"), Str("2024-05-03"),
                                  Str("9:00 AM"), Str("5:00 PM"), Num(30.0), Num(7.5), Undefined, Undefined);
      && ExportRowsAsWritten([Some(u)]).None? && ExportRows([Some(u)])[0][0] == ("Date Submitted", NotAvailable)
      && ExportToExcel([Some(u)], true) == Aborted
      && ExportToExcelCorrected([Some(u)], true).Sheet?
  {
  }

  /** What the export button leads to. `Aborted` is the `TypeError` thrown
      inside the confirmation handler: no sheet and no file. */
  datatype ExportOutcome = NoData(alert: Alert) | Cancelled | Aborted | Sheet(name: string, rows: seq<Row>)

  /** `exportToExcel` up to the workbook, as written: an empty list only
      alerts, the confirmation may be declined, a record whose date is not a
      string aborts the handler, and otherwise the sheet "Users" gets one row
      per record. */
  function ExportToExcel(data: seq<Option<ExportRecord>>, confirmed: bool): (r: ExportOutcome)
    ensures r.NoData? <==> |data| == 0
    ensures r.NoData? ==> r.alert == Alert("No data", Some("No users found to export."))
    ensures r.Cancelled? <==> |data| > 0 && !confirmed
    ensures r.Aborted? <==> |data| > 0 && confirmed && exists i :: 0 <= i < |data| && DateCellAsWritten(data[i]).None?
    ensures r.Sheet? ==> r.name == "Users" && |r.rows| == |data|
    ensures r.Sheet? ==> forall i :: 0 <= i < |r.rows| ==>
      |r.rows[i]| == |Headers| && forall k :: 0 <= k < |Headers| ==> r.rows[i][k].0 == Headers[k] && Truthy(r.rows[i][k].1)
    ensures r.Sheet? ==> r.rows == ExportRows(data)
  {
    if |data| == 0 then NoData(Alert("No data", Some("No users found to export.")))
    else if !confirmed then Cancelled
    else match ExportRowsAsWritten(data)
      case None => Aborted
      case Some(rows) =>
        ExportRowsAgree(data);
        Sheet("Users", rows)
  }

  /** `exportToExcel` with the corrected first column: a confirmed export of
      a non-empty list always yields the sheet. */
  function ExportToExcelCorrected(data: seq<Option<ExportRecord>>, confirmed: bool): (r: ExportOutcome)
    ensures r.NoData? <==> |data| == 0
    ensures r.NoData? ==> r.alert == Alert("No data", Some("No users found to export."))
    ensures r.Cancelled? <==> |data| > 0 && !confirmed
    ensures !r.Aborted?
    ensures r.Sheet? ==> r.name == "Users" && |r.rows| == |data|
    ensures r.Sheet? ==> forall i :: 0 <= i < |r.rows| ==>
      |r.rows[i]| == |Headers| && forall k :: 0 <= k < |Headers| ==> r.rows[i][k].0 == Headers[k] && Truthy(r.rows[i][k].1)
  {
    if |data| == 0 then NoData(Alert("No data", Some("No users found to export.")))
    else if !confirmed then Cancelled
    else Sheet("Users", ExportRows(data))
  }

  /** Where the written export produces a sheet, the corrected one produces
      the same sheet; the two differ only where the written one aborts. */
  lemma ExportAgrees(data: seq<Option<ExportRecord>>, confirmed: bool)
    ensures !ExportToExcel(data, confirmed).Aborted? ==> ExportToExcel(data, confirmed) == ExportToExcelCorrected(data, confirmed)
  {
    if |data| > 0 && confirmed && ExportRowsAsWritten(data).Some? {
      ExportRowsAgree(data);
    }
  }

  /** On a sheet the written export does produce, every truthy field reaches
      its cell unchanged, and every other field reads "N.A". */
  lemma ExportKeepsValues(data: seq<Option<ExportRecord>>, i: int, k: int)
    requires 0 <= i < |data| && 1 <= k < |Headers|
    ensures ExportToExcel(data, true).Sheet? ==>
      var v := Columns(data[i])[k - 1];
      var c := ExportToExcel(data, true).rows[i][k].1;
      (Truthy(v) ==> c == v) && (!Truthy(v) ==> c == NotAvailable)
  {
    ExportRowsAgree(data);
  }
}

=== FILE: payload.dfy ===
/** The multipart bodies the dashboard sends. Nested keys are written in
    bracket form, `[2024-05-01][time_in]`; the single-date label goes under
    `date` and the optional photo under `image_file`. `ReadFields`,
    `Select` and `ParseKey` read a body back the way a bracket-aware
    multipart parser would, so that the builders can be stated by what the
    receiver gets. */
module Payload {
  import opened Values
  import opened Text
  import opened Calendar
  import opened DayStore

  /** An image from the camera or the library: `{uri, fileName?, type?}`. */
  datatype Image = Image(uri: string, fileName: Option<string>, mimeType: Option<string>)

  /** The file object appended under `image_file`. */
  datatype FilePart = FilePart(uri: string, name: string, mimeType: string)

  datatype PartValue = Plain(v: Value) | Attached(file: FilePart)

  /** One `formData.append(key, value)`. */
  datatype Part = Part(key: string, value: PartValue)

  type Payload = seq<Part>

  const TimeInName: string := "time_in"
  const TimeOutName: string := "time_out"
  const LunchName: string := "lunch_timeout"
  const TotalHoursName: string := "total_hours"
  const DateKey: string := "date"
  const ImageKey: string := "image_file"

  /** `[${date}][${name}]`. */
  function FieldKey(d: Date, name: string): string {
    "[" + Iso(d) + "][" + name + "]"
  }

  /** The file part: the picker's name and type, or the fallbacks
      `<prefix><now>.jpg` and `image/jpeg` when those are absent or empty. */
  function ImageFile(img: Image, prefix: string, now: nat): (f: FilePart)
    ensures f.uri == img.uri
    ensures img.fileName.Some? && img.fileName.value != "" ==> f.name == img.fileName.value
    ensures img.fileName.None? || img.fileName == Some("") ==> f.name == prefix + NatDigits(now) + ".jpg"
    ensures img.mimeType.Some? && img.mimeType.value != "" ==> f.mimeType == img.mimeType.value
    ensures img.mimeType.None? || img.mimeType == Some("") ==> f.mimeType == "image/jpeg"
  {
    FilePart(img.uri, OrText(img.fileName, prefix + NatDigits(now) + ".jpg"), OrText(img.mimeType, "image/jpeg"))
  }

  /** `if (image) formData.append('image_file', …)`. */
  function ImageParts(image: Option<Image>, prefix: string, now: nat): Payload {
    if image.None? then [] else [Part(ImageKey, Attached(ImageFile(image.value, prefix, now)))]
  }

  /** A photo whose file part does not depend on the clock: none at all, or
      one with a non-empty file name. */
  predicate KeepsItsName(image: Option<Image>) {
    image.None? || (image.value.fileName.Some? && image.value.fileName.value != "")
  }

  /** `q` is `p` except for the name of the trailing file part. */
  predicate DifferOnlyInImageName(p: Payload, q: Payload) {
    && |p| == |q| > 0
    && p[..|p| - 1] == q[..|q| - 1]
    && p[|p| - 1].key == q[|q| - 1].key == ImageKey
    && p[|p| - 1].value.Attached? && q[|q| - 1].value.Attached?
    && p[|p| - 1].value.file.uri == q[|q| - 1].value.file.uri
    && p[|p| - 1].value.file.mimeType == q[|q| - 1].value.file.mimeType
  }

  /** The same body built at two moments: identical when the photo keeps
      its name, otherwise different at most in the photo's name. */
  lemma ImagePartsAtTwoMoments(head: Payload, image: Option<Image>, prefix: string, now: nat, later: nat)
    ensures KeepsItsName(image) ==> head + ImageParts(image, prefix, now) == head + ImageParts(image, prefix, later)
    ensures !KeepsItsName(image) ==>
      DifferOnlyInImageName(head + ImageParts(image, prefix, now), head + ImageParts(image, prefix, later))
  {
    if !KeepsItsName(image) {
      var p, q := head + ImageParts(image, prefix, now), head + ImageParts(image, prefix, later);
      assert p[..|p| - 1] == head;
      assert q[..|q| - 1] == head;
    }
  }

  /** The four bracket-keyed fields of one date, in the order the dashboard screen appends them. */
  function FieldParts(d: Date, e: DayEntry, lunch: Value): Payload {
    [ Part(FieldKey(d, TimeInName), Plain(e.timeIn)),
      Part(FieldKey(d, TimeOutName), Plain(e.timeOut)),
      Part(FieldKey(d, LunchName), Plain(lunch)),
      Part(FieldKey(d, TotalHoursName), Plain(e.totalHours)) ]
  }

  function DatePart(cursor: Date): Part {
    Part(DateKey, Plain(Str(Iso(cursor))))
  }

  /** The body `saveAsDraft` builds: the cursor date's fields, with lunch
      defaulting to 0 when falsy, then `date`, then the optional photo. */
  function DraftPayload(cursor: Date, e: DayEntry, image: Option<Image>, now: nat): Payload {
    FieldParts(cursor, e, Or(e.lunch, Num(0.0))) + [DatePart(cursor)] + ImageParts(image, "draft_", now)
  }

  /** The loop of `handleSubmit` over `Object.entries(days)`: each entry's
      four fields, lunch as stored, each followed by a `date` part carrying
      the cursor date. */
  function Rows(days: Days, cursor: Date): (p: Payload)
    ensures |p| == 5 * |days|
    decreases |days|
  {
    if days == [] then []
    else FieldParts(days[0].0, days[0].1, days[0].1.lunch) + [DatePart(cursor)] + Rows(days[1..], cursor)
  }

  /** The body `handleSubmit` builds. */
  function SubmitPayload(days: Days, cursor: Date, image: Option<Image>, now: nat): Payload {
    Rows(days, cursor) + ImageParts(image, "upload_", now)
  }

  // ---------------------------------------------------------------------
  // Reading a body back

  /** Splits `[<outer>][<inner>]` at the first closing bracket. */
  function SplitKey(key: string): Option<(string, string)> {
    if |key| < 2 || key[0] != '[' then None
    else
      var outer := BeforeFirst(key[1..], ']');
      var rest := key[1..][|outer|..];
      if |rest| >= 3 && rest[..2] == "][" && rest[|rest| - 1] == ']' then
        Some((outer, rest[2..|rest| - 1]))
      else None
  }

  /** Splits `[<date>][<name>]` into the date and the name. */
  function ParseKey(key: string): Option<(Date, string)> {
    match SplitKey(key)
    case None => None
    case Some((ds, name)) =>
      match ParseIso(ds)
      case Some(d) => Some((d, name))
      case None => None
  }

  lemma SplitBracketKey(outer: string, name: string)
    requires forall i :: 0 <= i < |outer| ==> outer[i] != ']'
    ensures SplitKey("[" + outer + "][" + name + "]") == Some((outer, name))
  {
    var key := "[" + outer + "][" + name + "]";
    var tail := "][" + name + "]";
    assert key[1..] == outer + tail;
    BeforeFirstAt(outer, tail, ']');
    assert key[1..][|outer|..] == tail;
    assert tail[2..|tail| - 1] == name;
  }

  /** A field key splits back into the date and name it was made from. */
  lemma ParseFieldKey(d: Date, name: string)
    ensures ParseKey(FieldKey(d, name)) == Some((d, name))
  {
    IsoAlphabet(d);
    SplitBracketKey(Iso(d), name);
    IsoRoundTrip(d);
  }

  /** What a receiver builds from the bracket-keyed text parts: for each
      date, its field names and values. A later part overwrites an earlier
      one with the same key. */
  type Fields = map<Date, map<string, Value>>

  function ReadPart(m: Fields, part: Part): Fields {
    if part.value.Attached? then m
    else
      match ParseKey(part.key)
      case None => m
      case Some((d, name)) => m[d := (if d in m then m[d] else map[])[name := part.value.v]]
  }

  function ReadFrom(m: Fields, p: Payload): Fields
    decreases |p|
  {
    if p == [] then m else ReadFrom(ReadPart(m, p[0]), p[1..])
  }

  function ReadFields(p: Payload): Fields {
    ReadFrom(map[], p)
  }

  /** The values sent under a plain key, in order. */
  function Select(p: Payload, key: string): (r: seq<PartValue>)
    ensures |r| <= |p|
  {
    if p == [] then []
    else (if p[0].key == key then [p[0].value] else []) + Select(p[1..], key)
  }

  /** The field map of one entry as the receiver sees it. */
  function WireFields(e: DayEntry, lunch: Value): map<string, Value> {
    map[TimeInName := e.timeIn, TimeOutName := e.timeOut, LunchName := lunch, TotalHoursName := e.totalHours]
  }

  lemma {:induction false} ReadFromAppend(m: Fields, a: Payload, b: Payload)
    ensures ReadFrom(m, a + b) == ReadFrom(ReadFrom(m, a), b)
    decreases |a|
  {
    if a != [] {
      assert (a + b)[0] == a[0];
      assert (a + b)[1..] == a[1..] + b;
      ReadFromAppend(ReadPart(m, a[0]), a[1..], b);
    } else {
      assert a + b == b;
    }
  }

  lemma {:induction false} SelectAppend(a: Payload, b: Payload, key: string)
    ensures Select(a + b, key) == Select(a, key) + Select(b, key)
    decreases |a|
  {
    if a != [] {
      assert (a + b)[0] == a[0];
      assert (a + b)[1..] == a[1..] + b;
      SelectAppend(a[1..], b, key);
    } else {
      assert a + b == b;
    }
  }

  /** One bracket-keyed text part sets one field of one date. */
  lemma ReadFieldPart(m: Fields, d: Date, name: string, v: Value)
    ensures ReadPart(m, Part(FieldKey(d, name), Plain(v))) == m[d := (if d in m then m[d] else map[])[name := v]]
  {
    ParseFieldKey(d, name);
  }

  /** Reading four parts one after the other. */
  lemma ReadFour(m: Fields, p: Payload)
    requires |p| == 4
    ensures ReadFrom(m, p) == ReadPart(ReadPart(ReadPart(ReadPart(m, p[0]), p[1]), p[2]), p[3])
  {
    var m1 := ReadPart(m, p[0]);
    var m2 := ReadPart(m1, p[1]);
    var m3 := ReadPart(m2, p[2]);
    var m4 := ReadPart(m3, p[3]);
    assert ReadFrom(m, p) == ReadFrom(m1, p[1..]);
    assert p[1..][0] == p[1] && p[1..][1..] == p[2..];
    assert ReadFrom(m1, p[1..]) == ReadFrom(m2, p[2..]);
    assert p[2..][0] == p[2] && p[2..][1..] == p[3..];
    assert ReadFrom(m2, p[2..]) == ReadFrom(m3, p[3..]);
    assert p[3..][0] == p[3] && p[3..][1..] == [];
    assert ReadFrom(m3, p[3..]) == ReadFrom(m4, []);
  }

  /** One date's four fields, read into a map that does not hold the date
      yet, add exactly that date with exactly those fields. */
  lemma ReadFieldParts(m: Fields, d: Date, e: DayEntry, lunch: Value)
    requires d !in m
    ensures ReadFrom(m, FieldParts(d, e, lunch)) == m[d := WireFields(e, lunch)]
  {
    var p := FieldParts(d, e, lunch);
    ReadFour(m, p);
    var f1 := map[TimeInName := e.timeIn];
    var f2 := f1[TimeOutName := e.timeOut];
    var f3 := f2[LunchName := lunch];
    var f4 := f3[TotalHoursName := e.totalHours];
    ReadFieldPart(m, d, TimeInName, e.timeIn);
    var m1 := m[d := f1];
    assert ReadPart(m, p[0]) == m1;
    ReadFieldPart(m1, d, TimeOutName, e.timeOut);
    MapOverride(m, d, f1, f2);
    var m2 := m[d := f2];
    assert ReadPart(m1, p[1]) == m2;
    ReadFieldPart(m2, d, LunchName, lunch);
    MapOverride(m, d, f2, f3);
    var m3 := m[d := f3];
    assert ReadPart(m2, p[2]) == m3;
    ReadFieldPart(m3, d, TotalHoursName, e.totalHours);
    MapOverride(m, d, f3, f4);
    assert ReadPart(m3, p[3]) == m[d := f4];
    assert f4 == WireFields(e, lunch);
  }

  /** A `date` part and an image part carry no bracket key. */
  lemma ReadPlainKeys(m: Fields, cursor: Date, image: Option<Image>, prefix: string, now: nat)
    ensures ReadFrom(m, [DatePart(cursor)]) == m
    ensures ReadFrom(m, ImageParts(image, prefix, now)) == m
  {
  }

  /** Parts whose keys all open with a bracket contribute nothing under a
      key that does not. */
  lemma {:induction false} SelectBracketed(p: Payload, key: string)
    requires forall i :: 0 <= i < |p| ==> |p[i].key| > 0 && p[i].key[0] == '['
    requires |key| > 0 && key[0] != '['
    ensures Select(p, key) == []
    decreases |p|
  {
    if p != [] {
      SelectBracketed(p[1..], key);
    }
  }

  /** The field parts use neither the `date` key nor the image key. */
  lemma SelectFieldParts(d: Date, e: DayEntry, lunch: Value)
    ensures Select(FieldParts(d, e, lunch), DateKey) == []
    ensures Select(FieldParts(d, e, lunch), ImageKey) == []
  {
    SelectBracketed(FieldParts(d, e, lunch), DateKey);
    SelectBracketed(FieldParts(d, e, lunch), ImageKey);
  }

  /** The draft body carries the cursor date's four fields and no other
      date, lunch never falsy except as the default 0, one `date` label equal
      to the cursor date, and the photo when there is one. */
  lemma DraftPayloadContents(cursor: Date, e: DayEntry, image: Option<Image>, now: nat)
    ensures ReadFields(DraftPayload(cursor, e, image, now)) == map[cursor := WireFields(e, Or(e.lunch, Num(0.0)))]
    ensures Truthy(Or(e.lunch, Num(0.0))) || Or(e.lunch, Num(0.0)) == Num(0.0)
    ensures Select(DraftPayload(cursor, e, image, now), DateKey) == [Plain(Str(Iso(cursor)))]
    ensures Select(DraftPayload(cursor, e, image, now), ImageKey)
         == if image.None? then [] else [Attached(ImageFile(image.value, "draft_", now))]
    ensures |DraftPayload(cursor, e, image, now)| == 5 + (if image.None? then 0 else 1)
  {
    var lunch := Or(e.lunch, Num(0.0));
    var f, dp, ip := FieldParts(cursor, e, lunch), [DatePart(cursor)], ImageParts(image, "draft_", now);
    ReadFromAppend(map[], f + dp, ip);
    ReadFromAppend(map[], f, dp);
    ReadFieldParts(map[], cursor, e, lunch);
    ReadPlainKeys(map[][cursor := WireFields(e, lunch)], cursor, image, "draft_", now);
    SelectAppend(f + dp, ip, DateKey);
    SelectAppend(f, dp, DateKey);
    SelectAppend(f + dp, ip, ImageKey);
    SelectAppend(f, dp, ImageKey);
    SelectFieldParts(cursor, e, lunch);
  }

  /** The fields of every entry of `days`, keyed by date, lunch as stored. */
  function WireMap(days: Days): (w: Fields)
    ensures forall d :: d in w <==> d in Dates(days)
  {
    if days == [] then map[] else WireMap(days[1..])[days[0].0 := WireFields(days[0].1, days[0].1.lunch)]
  }

  /** Each date of the store maps to its own entry's fields. */
  lemma {:induction false} WireMapEntries(days: Days)
    ensures forall d :: d in WireMap(days) ==> WireMap(days)[d] == WireFields(EntryOf(days, d), EntryOf(days, d).lunch)
    decreases |days|
  {
    if days != [] {
      WireMapEntries(days[1..]);
    }
  }

  /** One row of the submit body: four fields and a `date` label. */
  lemma ReadRow(m: Fields, d: Date, e: DayEntry, cursor: Date)
    requires d !in m
    ensures ReadFrom(m, FieldParts(d, e, e.lunch) + [DatePart(cursor)]) == m[d := WireFields(e, e.lunch)]
  {
    ReadFromAppend(m, FieldParts(d, e, e.lunch), [DatePart(cursor)]);
    ReadFieldParts(m, d, e, e.lunch);
    ReadPlainKeys(m[d := WireFields(e, e.lunch)], cursor, None, "", 0);
  }

  lemma MapUnionShift<K, V>(m: map<K, V>, k: K, v: V, w: map<K, V>)
    requires k !in w
    ensures m[k := v] + w == (m + w)[k := v]
  {
  }

  lemma MapUnionUpdate<K, V>(m: map<K, V>, w: map<K, V>, k: K, v: V)
    ensures (m + w)[k := v] == m + w[k := v]
  {
  }

  lemma TailDisjoint(m: Fields, days: Days, w: map<string, Value>)
    requires UniqueDates(days) && |days| > 0
    requires forall i :: 0 <= i < |days| ==> days[i].0 !in m
    ensures UniqueDates(days[1..])
    ensures forall i :: 0 <= i < |days[1..]| ==> days[1..][i].0 !in m[days[0].0 := w]
  {
  }

  /** Reading the rows of `days` into a map that holds none of its dates
      adds each date with its entry's fields and keeps the rest. */
  lemma {:induction false} ReadRows(m: Fields, days: Days, cursor: Date)
    requires UniqueDates(days)
    requires forall i :: 0 <= i < |days| ==> days[i].0 !in m
    ensures ReadFrom(m, Rows(days, cursor)) == m + WireMap(days)
    decreases |days|
  {
    if days == [] {
      assert m + map[] == m;
    } else {
      var d0, e0 := days[0].0, days[0].1;
      var row := FieldParts(d0, e0, e0.lunch) + [DatePart(cursor)];
      var rest := Rows(days[1..], cursor);
      assert Rows(days, cursor) == row + rest;
      ReadFromAppend(m, row, rest);
      ReadRow(m, d0, e0, cursor);
      var m' := m[d0 := WireFields(e0, e0.lunch)];
      TailDisjoint(m, days, WireFields(e0, e0.lunch));
      ReadRows(m', days[1..], cursor);
      var w0, w := WireFields(e0, e0.lunch), WireMap(days[1..]);
      assert d0 !in w;
      MapUnionShift(m, d0, w0, w);
      MapUnionUpdate(m, w, d0, w0);
      assert WireMap(days) == w[d0 := w0];
    }
  }

  lemma {:induction false} SelectRows(days: Days, cursor: Date)
    ensures Select(Rows(days, cursor), DateKey) == seq(|days|, _ => Plain(Str(Iso(cursor))))
    ensures Select(Rows(days, cursor), ImageKey) == []
    decreases |days|
  {
    if days != [] {
      var f, dp := FieldParts(days[0].0, days[0].1, days[0].1.lunch), [DatePart(cursor)];
      var rest := Rows(days[1..], cursor);
      assert Rows(days, cursor) == f + dp + rest;
      SelectAppend(f + dp, rest, DateKey);
      SelectAppend(f, dp, DateKey);
      SelectAppend(f + dp, rest, ImageKey);
      SelectAppend(f, dp, ImageKey);
      SelectFieldParts(days[0].0, days[0].1, days[0].1.lunch);
      SelectRows(days[1..], cursor);
    }
  }

  /** The submit body carries one field set per entry of `days`, keyed by
      that entry's own date, with lunch sent as stored; `date` labels equal
      to the cursor date, one per entry (none for an empty store); and the
      photo, once, when there is one. */
  lemma SubmitPayloadContents(days: Days, cursor: Date, image: Option<Image>, now: nat)
    requires UniqueDates(days)
    ensures forall d :: d in ReadFields(SubmitPayload(days, cursor, image, now)) <==> d in Dates(days)
    ensures forall d :: d in Dates(days) ==>
      ReadFields(SubmitPayload(days, cursor, image, now))[d] == WireFields(EntryOf(days, d), EntryOf(days, d).lunch)
    ensures Select(SubmitPayload(days, cursor, image, now), DateKey) == seq(|days|, _ => Plain(Str(Iso(cursor))))
    ensures Select(SubmitPayload(days, cursor, image, now), ImageKey)
         == if image.None? then [] else [Attached(ImageFile(image.value, "upload_", now))]
    ensures |SubmitPayload(days, cursor, image, now)| == 5 * |days| + (if image.None? then 0 else 1)
  {
    WireMapEntries(days);
    SubmitPayloadFields(days, cursor, image, now);
    var rows, ip := Rows(days, cursor), ImageParts(image, "upload_", now);
    SelectAppend(rows, ip, DateKey);
    SelectAppend(rows, ip, ImageKey);
    SelectRows(days, cursor);
  }

  lemma SubmitPayloadFields(days: Days, cursor: Date, image: Option<Image>, now: nat)
    requires UniqueDates(days)
    ensures ReadFields(SubmitPayload(days, cursor, image, now)) == WireMap(days)
  {
    var rows, ip := Rows(days, cursor), ImageParts(image, "upload_", now);
    ReadFromAppend(map[], rows, ip);
    ReadRows(map[], days, cursor);
    assert map[] + WireMap(days) == WireMap(days);
    ReadPlainKeys(ReadFrom(map[], rows), cursor, image, "upload_", now);
  }
}

=== FILE: register.dfy ===
/** The account form of the registration screen: `validateInputs` and
    `handleRegister`. */
module Register {
  import opened Values
  import opened Text

  /** The five text inputs. A text input always holds a string, so a field is
      falsy exactly when it is empty. */
  datatype Form = Form(fullName: string, username: string, email: string, password: string, confirmPassword: string)

  const EmptyForm: Form := Form("", "", "", "", "")

  predicate AllFilled(f: Form) {
    f.fullName != "" && f.username != "" && f.email != "" && f.password != "" && f.confirmPassword != ""
  }

  // ---------------------------------------------------------------------
  // The e-mail pattern

  /** A character of the class `[^\s@]`. */
  predicate EmailChar(c: char) {
    !IsWhitespace(c) && c != '@'
  }

  /** A match of `[^\s@]+`. */
  predicate EmailCharRun(s: string) {
    |s| > 0 && forall k :: 0 <= k < |s| ==> EmailChar(s[k])
  }

  /** The `@` at `i` and the `.` at `j` split `s` into three non-empty
      runs of `[^\s@]`. */
  predicate MatchAt(s: string, i: int, j: int) {
    0 < i < j < |s| - 1 && s[i] == '@' && s[j] == '.'
    && EmailCharRun(s[..i]) && EmailCharRun(s[i + 1..j]) && EmailCharRun(s[j + 1..])
  }

  /** A full match of `^[^\s@]+@[^\s@]+\.[^\s@]+$`. Since the middle run
      may hold dots of its own, `j` can be any dot after the `@` that is
      neither its neighbour nor the last character. */
  predicate EmailPattern(s: string) {
    exists i, j | 0 < i < j < |s| - 1 :: MatchAt(s, i, j)
  }

  /** A `.` that is neither the first nor the last character. */
  predicate HasInnerDot(d: string) {
    exists k | 0 < k < |d| - 1 :: d[k] == '.'
  }

  /** The same language described field by field: no whitespace anywhere, a
      non-empty local part before the first `@`, no second `@`, and a dot
      inside the domain. */
  predicate WellFormedEmail(s: string) {
    var local := BeforeFirst(s, '@');
    NoWhitespace(s) && 0 < |local| < |s|
    && (forall k :: |local| < k < |s| ==> s[k] != '@')
    && HasInnerDot(s[|local| + 1..])
  }

  /** The pattern accepts exactly the well-formed addresses. */
  lemma EmailPatternIff(s: string)
    ensures EmailPattern(s) <==> WellFormedEmail(s)
  {
    if EmailPattern(s) {
      PatternIsWellFormed(s);
    }
    if WellFormedEmail(s) {
      WellFormedIsPattern(s);
    }
  }

  lemma PatternIsWellFormed(s: string)
    requires EmailPattern(s)
    ensures WellFormedEmail(s)
  {
    var i, j :| 0 < i < j < |s| - 1 && MatchAt(s, i, j);
    PiecesAreEmailChars(s, i, j);
    assert BeforeFirst(s, '@') == s[..i] by {
      assert s == s[..i] + s[i..];
      BeforeFirstAt(s[..i], s[i..], '@');
    }
    assert NoWhitespace(s);
    assert forall k :: i < k < |s| ==> s[k] != '@';
    var d := s[i + 1..];
    assert d[j - i - 1] == '.';
    assert HasInnerDot(d);
  }

  /** Every character of a match is of the class `[^\s@]`, except the `@` at `i` and the
      `.` at `j`. */
  lemma PiecesAreEmailChars(s: string, i: int, j: int)
    requires MatchAt(s, i, j)
    ensures forall k :: 0 <= k < |s| && k != i && k != j ==> EmailChar(s[k])
  {
    var a, m, z := s[..i], s[i + 1..j], s[j + 1..];
    forall k | 0 <= k < |s| && k != i && k != j
      ensures EmailChar(s[k])
    {
      if k < i {
        assert s[k] == a[k];
      } else if k < j {
        assert s[k] == m[k - i - 1];
      } else {
        assert s[k] == z[k - j - 1];
      }
    }
  }

  lemma WellFormedIsPattern(s: string)
    requires WellFormedEmail(s)
    ensures EmailPattern(s)
  {
    var local := BeforeFirst(s, '@');
    var i := |local|;
    var d := s[i + 1..];
    var k :| 0 < k < |d| - 1 && d[k] == '.';
    var j := i + 1 + k;
    assert s[j] == '.';
    assert s[..i] == local;
    var m, z := s[i + 1..j], s[j + 1..];
    assert forall t :: 0 <= t < |m| ==> m[t] == s[i + 1 + t];
    assert forall t :: 0 <= t < |z| ==> z[t] == s[j + 1 + t];
    assert EmailCharRun(s[..i]) && EmailCharRun(m) && EmailCharRun(z);
    assert MatchAt(s, i, j);
  }

  // ---------------------------------------------------------------------
  // Validation

  datatype Verdict = Passed | Rejected(message: string)

  /** `validateInputs`: the checks in the order the screen makes them, the
      first failing one naming the error. The password length is counted in
      UTF-16 code units, as `String.prototype.length` does. */
  function ValidateInputs(f: Form): (r: Verdict)
    ensures r.Passed? <==>
      AllFilled(f) && WellFormedEmail(f.email) && Utf16Length(f.password) >= 8 && f.password == f.confirmPassword
    ensures r == Rejected("All fields are required!") <==> !AllFilled(f)
    ensures r == Rejected("Invalid email format!") <==> AllFilled(f) && !WellFormedEmail(f.email)
    ensures r == Rejected("Password must be at least 8 characters!") <==>
      AllFilled(f) && WellFormedEmail(f.email) && Utf16Length(f.password) < 8
    ensures r == Rejected("Passwords do not match!") <==>
      AllFilled(f) && WellFormedEmail(f.email) && Utf16Length(f.password) >= 8 && f.password != f.confirmPassword
  {
    EmailPatternIff(f.email);
    if !AllFilled(f) then Rejected("All fields are required!")
    else if !EmailPattern(f.email) then Rejected("Invalid email format!")
    else if Utf16Length(f.password) < 8 then Rejected("Password must be at least 8 characters!")
    else if f.password != f.confirmPassword then Rejected("Passwords do not match!")
    else Passed
  }

  // ---------------------------------------------------------------------
  // Sending the form

  /** `email.toLowerCase().trim()`. */
  function NormaliseEmail(s: string): string {
    Trim(Lower(s))
  }

  /** An address the pattern accepts has no whitespace, so the trim does
      nothing: the backend receives the lower-cased address, which the
      pattern still accepts, and normalising it again changes nothing. */
  lemma NormalisedEmail(s: string)
    requires EmailPattern(s)
    ensures NormaliseEmail(s) == Lower(s)
    ensures EmailPattern(NormaliseEmail(s))
    ensures NormaliseEmail(NormaliseEmail(s)) == NormaliseEmail(s)
  {
    var i, j :| 0 < i < j < |s| - 1 && MatchAt(s, i, j);
    var l := Lower(s);
    forall c: char
      ensures EmailChar(LowerChar(c)) <==> EmailChar(c)
      ensures LowerChar(c) == '.' <==> c == '.'
    {
      LowerCharKeeps(c);
    }
    var a, m, z := s[..i], s[i + 1..j], s[j + 1..];
    assert l[..i] == Lower(a) && l[i + 1..j] == Lower(m) && l[j + 1..] == Lower(z);
    assert EmailCharRun(Lower(a)) && EmailCharRun(Lower(m)) && EmailCharRun(Lower(z));
    assert MatchAt(l, i, j);
    PatternIsWellFormed(l);
    TrimNoWhitespace(l);
    LowerIdempotent(s);
  }

  /** The arguments of `api.register`. */
  datatype Request = Request(username: string, email: string, password: string, fullName: string)

  /** What one press of the register button leaves behind: the form, the
      request sent if any, the alert shown and whether the screen navigated
      to the login screen. */
  datatype Outcome = Outcome(form: Form, request: Option<Request>, alert: Alert, toLogin: bool)

  /** `handleRegister`, with `reply` the result of `api.register`. */
  function HandleRegister(f: Form, reply: Reply<()>): (r: Outcome)
    // A form that fails validation sends nothing and stays as typed.
    ensures ValidateInputs(f).Rejected? ==>
      r == Outcome(f, None, Alert("Error", Some(ValidateInputs(f).message)), false)
    // A valid form sends its fields with the address in lower case.
    ensures ValidateInputs(f).Passed? ==>
      r.request == Some(Request(f.username, Lower(f.email), f.password, f.fullName))
    ensures r.request.Some? ==> WellFormedEmail(r.request.value.email)
    // Only a reported success clears the form and leaves the screen.
    ensures r.toLogin <==> r.request.Some? && reply.Replied? && reply.success
    ensures r.toLogin ==> r.form == EmptyForm && r.alert == Alert("Success", Some("Registration Successful! Please login."))
    ensures !r.toLogin ==> r.form == f
    ensures r.request.Some? && reply.Replied? && !reply.success ==> r.alert == Alert("Error", reply.message)
    ensures r.request.Some? && reply.Threw? ==> r.alert == Alert("Error", Some("Something went wrong. Please try again."))
  {
    match ValidateInputs(f)
    case Rejected(message) => Outcome(f, None, Alert("Error", Some(message)), false)
    case Passed =>
      EmailPatternIff(f.email);
      NormalisedEmail(f.email);
      EmailPatternIff(NormaliseEmail(f.email));
      var request := Request(f.username, NormaliseEmail(f.email), f.password, f.fullName);
      match reply
      case Threw => Outcome(f, Some(request), Alert("Error", Some("Something went wrong. Please try again.")), false)
      case Replied(success, _, message, _) =>
        if success then Outcome(EmptyForm, Some(request), Alert("Success", Some("Registration Successful! Please login.")), true)
        else Outcome(f, Some(request), Alert("Error", message), false)
  }

  /** After a successful registration the form is empty, so pressing the
      button again sends nothing and asks for every field. */
  lemma NoSecondRegistration(f: Form, reply: Reply<()>, again: Reply<()>)
    requires HandleRegister(f, reply).toLogin
    ensures HandleRegister(HandleRegister(f, reply).form, again).request.None?
    ensures HandleRegister(HandleRegister(f, reply).form, again).alert == Alert("Error", Some("All fields are required!"))
  {
  }

  /** After a failed attempt the form is kept, so a retry sends the same
      request. */
  lemma RetrySendsSameRequest(f: Form, reply: Reply<()>, again: Reply<()>)
    requires HandleRegister(f, reply).request.Some? && !HandleRegister(f, reply).toLogin
    ensures HandleRegister(HandleRegister(f, reply).form, again).request == HandleRegister(f, reply).request
  {
  }

  /** Two addresses differing only in the case of their letters register as
      the same address. */
  lemma CaseBlindEmail(f: Form, g: Form, reply: Reply<()>)
    requires ValidateInputs(f).Passed? && ValidateInputs(g).Passed?
    requires g == f.(email := g.email) && Lower(f.email) == Lower(g.email)
    ensures HandleRegister(f, reply).request == HandleRegister(g, reply).request
  {
  }
}

=== FILE: submission.dfy ===
/** The dashboard's state and the user actions that change it: editing a
    field, picking a date, saving a draft, submitting, and refreshing the
    uploaded dates and the saved drafts. The transport's reply, the clock's `today` and
    `Date.now()` are parameters, so each action is a pure transition. */
module Submission {
  import opened Values
  import opened Calendar
  import opened DayStore
  import opened Availability
  import opened Text
  import opened Payload

  /** The screen state the engine reads and writes. `session` is whether the
      app still holds a login; clearing storage and `setIsLoggedIn(false)`
      set it to false. */
  datatype AppState = AppState(
    days: Days,
    cursor: Date,
    image: Option<Image>,
    uploaded: seq<string>,
    drafts: Value,
    session: bool)

  /** The outcome of one action: the next state, the body handed to the
      transport (if any), the alert shown (if any), and whether the uploaded
      dates and drafts are re-fetched. */
  datatype Step = Step(state: AppState, sent: Option<Payload>, alert: Option<Alert>, refresh: bool)

  /** `handleDataChange(f, v)`: a field edit on the cursor date. */
  function EditField(s: AppState, f: Field, v: Value): (r: AppState)
    ensures r == s.(days := r.days)
    ensures AsMap(r.days) == AsMap(s.days)[s.cursor := Put(EntryOf(s.days, s.cursor), f, v)]
  {
    SetFieldMapView(s.days, s.cursor, f, v);
    s.(days := SetField(s.days, s.cursor, f, v))
  }

  /** The date picker's `onChange`: a picked instant moves the cursor to
      its day unless `isDateDisabled` refuses it. The cursor thus never
      moves onto a future date or an uploaded one. */
  function PickDate(s: AppState, picked: Instant, today: Date): (r: AppState)
    ensures r == s.(cursor := r.cursor)
    ensures r.cursor == s.cursor || r.cursor == picked.date
    ensures r.cursor != s.cursor ==> !Before(today, r.cursor) && Iso(r.cursor) !in s.uploaded
    ensures picked.msOfDay == 0 && !Before(today, picked.date) && Iso(picked.date) !in s.uploaded
            ==> r.cursor == picked.date
  {
    if IsDateDisabled(picked, today, s.uploaded) then s else s.(cursor := picked.date)
  }

  /** The draft check: time in, time out and total hours all truthy. A
      total of 0, which is what an empty box yields, fails it. */
  predicate DraftComplete(e: DayEntry) {
    Truthy(e.timeIn) && Truthy(e.timeOut) && Truthy(e.totalHours)
  }

  /** The submit check: one of those fields truthy, or a photo attached. */
  predicate SubmitAllowed(e: DayEntry, image: Option<Image>) {
    Truthy(e.timeIn) || Truthy(e.timeOut) || Truthy(e.totalHours) || image.Some?
  }

  /** The state after a reply the code treats as a failure: 401 drops the
      session and nothing else; any other failure keeps everything. */
  function AfterFailure(s: AppState, reply: Reply<()>): AppState {
    if IsUnauthorized(reply) then s.(session := false) else s
  }

  /** `saveAsDraft`. */
  function SaveDraft(s: AppState, today: Date, now: nat, reply: Reply<()>): (r: Step)
    // A rejected draft sends nothing and changes nothing.
    ensures !DraftComplete(EntryOf(s.days, s.cursor)) ==>
      r == Step(s, None, Some(Alert("Validation Error", Some("All fields are required for the current date!"))), false)
    ensures DraftComplete(EntryOf(s.days, s.cursor)) ==>
      r.sent == Some(DraftPayload(s.cursor, EntryOf(s.days, s.cursor), s.image, now))
    // Success clears the store and the photo; the cursor moves one day on
    // unless it was today.
    ensures r.sent.Some? && reply.Replied? && reply.success ==>
      && r.state == s.(days := [], image := None, cursor := if s.cursor != today then NextDay(s.cursor) else today)
      && r.refresh
    // 401 drops the session and keeps the data; other failures keep all.
    ensures r.sent.Some? && IsUnauthorized(reply) ==> r.state == s.(session := false) && r.alert.None?
    ensures r.sent.Some? && !IsUnauthorized(reply) && !(reply.Replied? && reply.success) ==>
      r.state == s && r.alert.Some? && r.alert.value.title == "Save Failed"
    // The backend's message is alerted as it came; an exception alerts a
    // fixed text.
    ensures r.sent.Some? && reply.Replied? && !reply.success && !IsUnauthorized(reply) ==>
      r.alert == Some(Alert("Save Failed", reply.message))
    ensures r.sent.Some? && reply.Threw? ==>
      r.alert == Some(Alert("Save Failed", Some("There was an error saving the draft.")))
    // Entered data is only dropped after a reported success.
    ensures r.state.days != s.days ==> reply.Replied? && reply.success
  {
    var e := EntryOf(s.days, s.cursor);
    if !DraftComplete(e) then
      Step(s, None, Some(Alert("Validation Error", Some("All fields are required for the current date!"))), false)
    else
      var body := DraftPayload(s.cursor, e, s.image, now);
      match reply
      case Threw =>
        Step(s, Some(body), Some(Alert("Save Failed", Some("There was an error saving the draft."))), false)
      case Replied(success, status, message, _) =>
        if success then
          IsoInjective(s.cursor, today);
          var next := if Iso(s.cursor) != Iso(today) then NextDay(s.cursor) else s.cursor;
          Step(s.(days := [], image := None, cursor := next), Some(body),
               Some(Alert("Draft Saved", Some("Data saved for date: " + Iso(s.cursor)))), true)
        else if status == Some(Unauthorized) then
          Step(AfterFailure(s, reply), Some(body), None, false)
        else
          Step(s, Some(body), Some(Alert("Save Failed", message)), false)
  }

  /** `handleSubmit`. */
  function Submit(s: AppState, now: nat, reply: Reply<()>): (r: Step)
    ensures !SubmitAllowed(EntryOf(s.days, s.cursor), s.image) ==>
      r == Step(s, None, Some(Alert("Validation Error", Some("min one field is required"))), false)
    ensures SubmitAllowed(EntryOf(s.days, s.cursor), s.image) ==>
      r.sent == Some(SubmitPayload(s.days, s.cursor, s.image, now))
    // Success clears the store and the photo and never moves the cursor.
    ensures r.sent.Some? && reply.Replied? && reply.success ==>
      && r.state == s.(days := [], image := None) && r.refresh
    ensures r.sent.Some? && IsUnauthorized(reply) ==> r.state == s.(session := false) && r.alert.None?
    ensures r.sent.Some? && !IsUnauthorized(reply) && !(reply.Replied? && reply.success) ==>
      r.state == s && r.alert.Some? && r.alert.value.title == "Upload Failed"
    ensures r.sent.Some? && reply.Replied? && !reply.success && !IsUnauthorized(reply) ==>
      r.alert == Some(Alert("Upload Failed", reply.message))
    ensures r.sent.Some? && reply.Threw? ==>
      r.alert == Some(Alert("Upload Failed", Some("There was an error uploading the timesheet.")))
    ensures r.state.cursor == s.cursor
    ensures r.state.days != s.days ==> reply.Replied? && reply.success
  {
    if !SubmitAllowed(EntryOf(s.days, s.cursor), s.image) then
      Step(s, None, Some(Alert("Validation Error", Some("min one field is required"))), false)
    else
      var body := SubmitPayload(s.days, s.cursor, s.image, now);
      match reply
      case Threw =>
        Step(s, Some(body), Some(Alert("Upload Failed", Some("There was an error uploading the timesheet."))), false)
      case Replied(success, status, message, _) =>
        if success then
          Step(s.(days := [], image := None), Some(body),
               Some(Alert("Success", Some("Timesheet uploaded successfully!"))), true)
        else if status == Some(Unauthorized) then
          Step(AfterFailure(s, reply), Some(body), None, false)
        else
          Step(s, Some(body), Some(Alert("Upload Failed", message)), false)
  }

  /** `fetchDates`: a successful reply replaces the uploaded dates; 401
      drops the session; anything else only logs. */
  function RefreshUploaded(s: AppState, reply: Reply<seq<string>>): (r: AppState)
    ensures r.days == s.days && r.cursor == s.cursor && r.image == s.image && r.drafts == s.drafts
    ensures reply.Replied? && reply.success ==> r.uploaded == reply.data && r.session == s.session
    ensures IsUnauthorized(reply) ==> r == s.(session := false)
    ensures !IsUnauthorized(reply) && !(reply.Replied? && reply.success) ==> r == s
  {
    match reply
    case Threw => s
    case Replied(success, status, _, data) =>
      if success then s.(uploaded := data)
      else if status == Some(Unauthorized) then s.(session := false)
      else s
  }

  /** `fetchDraftData`: a successful reply replaces the list of saved
      drafts shown on the screen; 401 drops the session; anything else only
      logs. */
  function RefreshDrafts(s: AppState, reply: Reply<Value>): (r: AppState)
    ensures r.days == s.days && r.cursor == s.cursor && r.image == s.image && r.uploaded == s.uploaded
    ensures reply.Replied? && reply.success ==> r.drafts == reply.data && r.session == s.session
    ensures IsUnauthorized(reply) ==> r == s.(session := false)
    ensures !IsUnauthorized(reply) && !(reply.Replied? && reply.success) ==> r == s
  {
    match reply
    case Threw => s
    case Replied(success, status, _, data) =>
      if success then s.(drafts := data)
      else if status == Some(Unauthorized) then s.(session := false)
      else s
  }

  /** The two refreshes run side by side on mount and after every success;
      whichever answers first, the state ends up the same. The session
      survives exactly when neither reply is a 401. */
  lemma RefreshesCommute(s: AppState, dates: Reply<seq<string>>, drafts: Reply<Value>)
    ensures RefreshDrafts(RefreshUploaded(s, dates), drafts) == RefreshUploaded(RefreshDrafts(s, drafts), dates)
    ensures RefreshDrafts(RefreshUploaded(s, dates), drafts).session
      <==> s.session && !IsUnauthorized(dates) && !IsUnauthorized(drafts)
  {
  }

  // ---------------------------------------------------------------------
  // Properties across actions

  /** Filling in time in, time out and a non-zero total on the cursor date,
      in any order and whatever else was there, makes the draft acceptable. */
  lemma FilledEntrySaves(s: AppState, tin: Value, tout: Value, hours: Value, today: Date, now: nat, reply: Reply<()>)
    requires Truthy(tin) && Truthy(tout) && Truthy(hours)
    ensures var s' := EditField(EditField(EditField(s, TimeIn, tin), TimeOut, tout), TotalHours, hours);
      SaveDraft(s', today, now, reply).sent.Some?
  {
    var s1 := EditField(s, TimeIn, tin);
    var s2 := EditField(s1, TimeOut, tout);
    var s3 := EditField(s2, TotalHours, hours);
    SetFieldFrame(s.days, s.cursor, TimeIn, tin);
    SetFieldFrame(s1.days, s.cursor, TimeOut, tout);
    SetFieldFrame(s2.days, s.cursor, TotalHours, hours);
    assert EntryOf(s3.days, s.cursor) == DayEntry(tin, tout, EntryOf(s.days, s.cursor).lunch, hours);
  }

  /** The submit check is looser than the draft check: whatever a draft save
      would send, a submit would send too, and there is a state a submit
      accepts but a draft save rejects. */
  lemma SubmitLooserThanDraft(s: AppState, today: Date, now: nat, reply: Reply<()>)
    ensures SaveDraft(s, today, now, reply).sent.Some? ==> Submit(s, now, reply).sent.Some?
    ensures var loose := s.(days := SetField([], s.cursor, TimeIn, Str("9:00 AM")));
      Submit(loose, now, reply).sent.Some? && SaveDraft(loose, today, now, reply).sent.None?
  {
    var e := EntryOf(s.days, s.cursor);
    assert DraftComplete(e) ==> SubmitAllowed(e, s.image);
    var loose := s.(days := SetField([], s.cursor, TimeIn, Str("9:00 AM")));
    SetFieldFrame([], s.cursor, TimeIn, Str("9:00 AM"));
    var l := EntryOf(loose.days, s.cursor);
    assert l.timeIn == Str("9:00 AM") && l.timeOut == Undefined;
    assert SubmitAllowed(l, loose.image) && !DraftComplete(l);
  }

  /** After a successful save or submit, a submit without a new photo is
      rejected before any call is made. */
  lemma NothingLeftAfterSuccess(s: AppState, today: Date, now: nat, later: nat, reply: Reply<()>, next: Reply<()>)
    requires reply.Replied? && reply.success
    ensures var d := SaveDraft(s, today, now, reply);
      d.sent.Some? ==> Submit(d.state, later, next).sent.None?
    ensures var u := Submit(s, now, reply);
      u.sent.Some? ==> Submit(u.state, later, next).sent.None?
  {
    var d := SaveDraft(s, today, now, reply);
    var u := Submit(s, now, reply);
    assert d.sent.Some? ==> d.state.days == [] && d.state.image == None;
    assert u.sent.Some? ==> u.state.days == [] && u.state.image == None;
    assert !SubmitAllowed(EntryOf([], d.state.cursor), None);
    assert !SubmitAllowed(EntryOf([], u.state.cursor), None);
  }

  /** After a failure other than 401, trying again at a later moment sends
      the same body, except that a photo without a file name gets a fresh
      `Date.now()` name. */
  lemma RetrySendsSameBody(s: AppState, today: Date, now: nat, later: nat, reply: Reply<()>, again: Reply<()>)
    requires !IsUnauthorized(reply) && !(reply.Replied? && reply.success)
    ensures var first := SaveDraft(s, today, now, reply).sent;
      var retry := SaveDraft(SaveDraft(s, today, now, reply).state, today, later, again).sent;
      && (retry.Some? <==> first.Some?)
      && (first.Some? && KeepsItsName(s.image) ==> retry == first)
      && (first.Some? && !KeepsItsName(s.image) ==> DifferOnlyInImageName(first.value, retry.value))
    ensures var first := Submit(s, now, reply).sent;
      var retry := Submit(Submit(s, now, reply).state, later, again).sent;
      && (retry.Some? <==> first.Some?)
      && (first.Some? && KeepsItsName(s.image) ==> retry == first)
      && (first.Some? && !KeepsItsName(s.image) ==> DifferOnlyInImageName(first.value, retry.value))
  {
    var e := EntryOf(s.days, s.cursor);
    ImagePartsAtTwoMoments(FieldParts(s.cursor, e, Or(e.lunch, Num(0.0))) + [DatePart(s.cursor)], s.image, "draft_", now, later);
    ImagePartsAtTwoMoments(Rows(s.days, s.cursor), s.image, "upload_", now, later);
  }

  /** Saving drafts on consecutive past days: a save of yesterday's entry
      moves the cursor to today, and a successful save of a complete entry
      for today keeps it there. */
  lemma DraftWalksToToday(s: AppState, today: Date, now: nat, reply: Reply<()>)
    requires NextDay(s.cursor) == today
    requires DraftComplete(EntryOf(s.days, s.cursor))
    requires reply.Replied? && reply.success
    ensures SaveDraft(s, today, now, reply).state.cursor == today
    ensures var e := DayEntry(Str("8:00 AM"), Str("5:00 PM"), Num(30.0), Num(8.5));
      var t := SaveDraft(s, today, now, reply).state.(days := [(today, e)]);
      SaveDraft(t, today, now, reply).sent.Some? && SaveDraft(t, today, now, reply).state.cursor == today
  {
    assert s.cursor != today;
    var e := DayEntry(Str("8:00 AM"), Str("5:00 PM"), Num(30.0), Num(8.5));
    assert EntryOf([(today, e)], today) == e;
  }

  /** The worked example: cursor 2024-05-03 (not today), a complete entry,
      no photo, a successful reply: the store empties and the cursor reads
      2024-05-04. */
  lemma DraftScenario(now: nat)
    ensures var cursor: Date := CalDate(2024, 5, 3);
      var today: Date := CalDate(2024, 5, 10);
      var e := DayEntry(Str("9:00 AM"), Str("5:00 PM"), Num(30.0), Num(7.5));
      var s := AppState([(cursor, e)], cursor, None, [], Undefined, true);
      var r := SaveDraft(s, today, now, Replied(true, Some(200), None, ()));
      r.state.days == [] && Iso(r.state.cursor) == "2024-05-04" && r.sent.Some?
  {
    var cursor: Date := CalDate(2024, 5, 3);
    var e := DayEntry(Str("9:00 AM"), Str("5:00 PM"), Num(30.0), Num(7.5));
    var today: Date := CalDate(2024, 5, 10);
    var s := AppState([(cursor, e)], cursor, None, [], Undefined, true);
    assert EntryOf(s.days, cursor) == e;
    assert DraftComplete(e);
    var r := SaveDraft(s, today, now, Replied(true, Some(200), None, ()));
    assert r.state.cursor == NextDay(cursor) == CalDate(2024, 5, 4);
    IsoOfMayFourth();
  }

  lemma IsoOfMayFourth()
    ensures Iso(CalDate(2024, 5, 4)) == "2024-05-04"
  {
    assert ZeroPadded(2024, 4) == "2024";
    assert ZeroPadded(5, 2) == "05";
    assert ZeroPadded(4, 2) == "04";
  }

  /** A submit of entries for 2024-05-01 and 2024-05-02 sends one field set
      per date and, since the loop appends it once per entry, two copies of
      the cursor's `date` label. */
  lemma SubmitTwoDates(e1: DayEntry, e2: DayEntry, cursor: Date, now: nat)
    ensures var a: Date, b: Date := CalDate(2024, 5, 1), CalDate(2024, 5, 2);
      var p := SubmitPayload([(a, e1), (b, e2)], cursor, None, now);
      (forall d :: d in ReadFields(p) <==> d == a || d == b)
      && Select(p, DateKey) == [Plain(Str(Iso(cursor))), Plain(Str(Iso(cursor)))]
  {
    var a: Date, b: Date := CalDate(2024, 5, 1), CalDate(2024, 5, 2);
    var days := [(a, e1), (b, e2)];
    assert Dates(days) == [a, b];
    SubmitPayloadContents(days, cursor, None, now);
  }

  /** Submitting with nothing entered and no photo is refused before any
      call. */
  lemma EmptySubmitRejected(s: AppState, now: nat, reply: Reply<()>)
    requires s.days == [] && s.image.None?
    ensures Submit(s, now, reply) == Step(s, None, Some(Alert("Validation Error", Some("min one field is required"))), false)
  {
    assert EntryOf([], s.cursor) == Blank;
  }
}

=== FILE: text.dfy ===
/** String primitives the screens use: decimal rendering and its inverse,
    `padStart`, `toLowerCase`, `trim`, `includes`, `split(c)[0]`, the regular
    expression class `\s`, and `length` counted in UTF-16 code units. */
module Text {

  // ---------------------------------------------------------------------
  // Decimal digits

  predicate IsDigit(c: char) {
    '0' <= c <= '9'
  }

  predicate AllDigits(s: string) {
    forall i :: 0 <= i < |s| ==> IsDigit(s[i])
  }

  function DigitChar(d: nat): (c: char)
    requires d < 10
    ensures IsDigit(c)
  {
    ('0' as int + d) as char
  }

  function DigitOf(c: char): nat
    requires IsDigit(c)
  {
    c as int - '0' as int
  }

  /** `n.toString()` for a non-negative integer: no sign, no leading zero. */
  function NatDigits(n: nat): (s: string)
    ensures 1 <= |s|
    ensures AllDigits(s)
    decreases n
  {
    if n < 10 then [DigitChar(n)] else NatDigits(n / 10) + [DigitChar(n % 10)]
  }

  /** The number a string of decimal digits denotes (leading zeros allowed). */
  function DigitValue(s: string): nat
    requires AllDigits(s)
    decreases |s|
  {
    if s == [] then 0 else DigitValue(s[..|s| - 1]) * 10 + DigitOf(s[|s| - 1])
  }

  /** Reading back what `toString` wrote gives the number again. */
  lemma {:induction false} DigitValueOfNatDigits(n: nat)
    ensures DigitValue(NatDigits(n)) == n
    decreases n
  {
    var s := NatDigits(n);
    if n < 10 {
      assert s[..|s| - 1] == [];
    } else {
      DigitValueOfNatDigits(n / 10);
      assert s[..|s| - 1] == NatDigits(n / 10);
      assert DigitOf(s[|s| - 1]) == n % 10;
    }
  }

  /** Numbers below 100 print with one digit below 10 and two otherwise. */
  lemma NatDigitsBelowHundred(n: nat)
    requires n < 100
    ensures |NatDigits(n)| == if n < 10 then 1 else 2
  {
    if n >= 10 {
      assert |NatDigits(n / 10)| == 1;
    }
  }

  // ---------------------------------------------------------------------
  // Padding

  function Repeat(c: char, k: nat): (s: string)
    ensures |s| == k
    ensures forall i :: 0 <= i < k ==> s[i] == c
  {
    if k == 0 then [] else [c] + Repeat(c, k - 1)
  }

  /** `s.padStart(width, c)` for a one-character pad string. */
  function PadStart(s: string, width: nat, c: char): (r: string)
    ensures |r| == if |s| >= width then |s| else width
  {
    if |s| >= width then s else Repeat(c, width - |s|) + s
  }

  /** Leading zeros do not change the value of a digit string. */
  lemma {:induction false} LeadingZeros(k: nat, s: string)
    requires AllDigits(s)
    ensures AllDigits(Repeat('0', k) + s)
    ensures DigitValue(Repeat('0', k) + s) == DigitValue(s)
    decreases |s|
  {
    var t := Repeat('0', k) + s;
    if s == [] {
      assert t == Repeat('0', k);
      ZerosValue(k);
    } else {
      LeadingZeros(k, s[..|s| - 1]);
      assert t[..|t| - 1] == Repeat('0', k) + s[..|s| - 1];
      assert t[|t| - 1] == s[|s| - 1];
    }
  }

  lemma {:induction false} ZerosValue(k: nat)
    ensures AllDigits(Repeat('0', k))
    ensures DigitValue(Repeat('0', k)) == 0
  {
    if k > 0 {
      var z := Repeat('0', k);
      assert z[..k - 1] == Repeat('0', k - 1);
      ZerosValue(k - 1);
    }
  }

  /** A number rendered with `toString().padStart(width, '0')`. */
  function ZeroPadded(n: nat, width: nat): (s: string)
    ensures AllDigits(s)
  {
    var d := NatDigits(n);
    LeadingZeros(if |d| >= width then 0 else width - |d|, d);
    PadStart(d, width, '0')
  }

  /** Zero padding is undone by reading the digits back. */
  lemma ZeroPaddedValue(n: nat, width: nat)
    ensures DigitValue(ZeroPadded(n, width)) == n
  {
    var d := NatDigits(n);
    DigitValueOfNatDigits(n);
    if |d| < width {
      LeadingZeros(width - |d|, d);
    }
  }

  /** Below 100, two-digit padding gives exactly two digits. */
  lemma ZeroPaddedTwo(n: nat)
    requires n < 100
    ensures |ZeroPadded(n, 2)| == 2
  {
    NatDigitsBelowHundred(n);
  }

  // ---------------------------------------------------------------------
  // Whitespace, case and trimming

  /** Membership in the regular-expression class `\s`, which is also the set
      of code points `String.prototype.trim` removes. */
  predicate IsWhitespace(c: char) {
    || c in {'\t', '\n', '\U{000B}', '\U{000C}', '\r', ' ', '\U{00A0}', '\U{1680}'}
    || ('\U{2000}' <= c <= '\U{200A}')
    || c in {'\U{2028}', '\U{2029}', '\U{202F}', '\U{205F}', '\U{3000}', '\U{FEFF}'}
  }

  predicate NoWhitespace(s: string) {
    forall i :: 0 <= i < |s| ==> !IsWhitespace(s[i])
  }

  function LowerChar(c: char): char {
    if 'A' <= c <= 'Z' then (c as int + 32) as char else c
  }

  /** `s.toLowerCase()` on the ASCII letters. */
  function Lower(s: string): (r: string)
    ensures |r| == |s|
    ensures forall i :: 0 <= i < |s| ==> r[i] == LowerChar(s[i])
  {
    seq(|s|, i requires 0 <= i < |s| => LowerChar(s[i]))
  }

  /** Lowering twice is lowering once. */
  lemma LowerIdempotent(s: string)
    ensures Lower(Lower(s)) == Lower(s)
  {
  }

  /** Lowering neither creates nor removes whitespace, `@` or `.`. */
  lemma LowerCharKeeps(c: char)
    ensures IsWhitespace(LowerChar(c)) <==> IsWhitespace(c)
    ensures LowerChar(c) == '@' <==> c == '@'
    ensures LowerChar(c) == '.' <==> c == '.'
  {
  }

  function TrimStart(s: string): (r: string)
    decreases |s|
  {
    if s != [] && IsWhitespace(s[0]) then TrimStart(s[1..]) else s
  }

  function TrimEnd(s: string): (r: string)
    decreases |s|
  {
    if s != [] && IsWhitespace(s[|s| - 1]) then TrimEnd(s[..|s| - 1]) else s
  }

  /** `s.trim()`. */
  function Trim(s: string): string {
    TrimEnd(TrimStart(s))
  }

  /** Trimming a string without whitespace returns it unchanged. */
  lemma TrimNoWhitespace(s: string)
    requires NoWhitespace(s)
    ensures Trim(s) == s
  {
  }

  // ---------------------------------------------------------------------
  // Searching and splitting

  predicate StartsWith(s: string, prefix: string) {
    |prefix| <= |s| && s[..|prefix|] == prefix
  }

  /** `hay.includes(needle)`, computed by trying every start position. */
  predicate Contains(hay: string, needle: string)
    decreases |hay|
  {
    StartsWith(hay, needle) || (|hay| > 0 && Contains(hay[1..], needle))
  }

  /** `needle` is the slice of `hay` that starts at `i`. */
  ghost predicate OccursAt(hay: string, needle: string, i: int) {
    0 <= i && i + |needle| <= |hay| && hay[i..i + |needle|] == needle
  }

  /** The search finds the needle exactly when it occurs somewhere. */
  lemma {:induction false} ContainsIffOccurs(hay: string, needle: string)
    ensures Contains(hay, needle) <==> exists i :: OccursAt(hay, needle, i)
    decreases |hay|
  {
    if StartsWith(hay, needle) {
      assert OccursAt(hay, needle, 0);
    } else if |hay| > 0 {
      ContainsIffOccurs(hay[1..], needle);
      if Contains(hay[1..], needle) {
        var i :| OccursAt(hay[1..], needle, i);
        assert hay[1..][i..i + |needle|] == hay[i + 1..i + 1 + |needle|];
        assert OccursAt(hay, needle, i + 1);
      }
      if i :| OccursAt(hay, needle, i) {
        assert i != 0;
        assert hay[1..][i - 1..i - 1 + |needle|] == hay[i..i + |needle|];
        assert OccursAt(hay[1..], needle, i - 1);
      }
    }
  }

  /** Every string includes the empty string. */
  lemma ContainsEmpty(hay: string)
    ensures Contains(hay, "")
  {
    assert StartsWith(hay, "");
  }

  /** `s.split(c)[0]`: the text before the first `c`, or all of `s`. */
  function BeforeFirst(s: string, c: char): (r: string)
    ensures |r| <= |s| && r == s[..|r|]
    ensures forall i :: 0 <= i < |r| ==> r[i] != c
    ensures r == s || s[|r|] == c
  {
    if s == [] then []
    else if s[0] == c then []
    else [s[0]] + BeforeFirst(s[1..], c)
  }

  /** The first piece ends where the first `c` is. */
  lemma {:induction false} BeforeFirstAt(a: string, b: string, c: char)
    requires forall i :: 0 <= i < |a| ==> a[i] != c
    requires |b| > 0 && b[0] == c
    ensures BeforeFirst(a + b, c) == a
    decreases |a|
  {
    if a == [] {
      assert (a + b)[0] == c;
    } else {
      assert (a + b)[0] == a[0];
      assert (a + b)[1..] == a[1..] + b;
      BeforeFirstAt(a[1..], b, c);
    }
  }

  // ---------------------------------------------------------------------
  // Length

  /** `s.length`: characters outside the Basic Multilingual Plane take two
      UTF-16 code units. */
  function Utf16Length(s: string): (n: nat)
    ensures |s| <= n <= 2 * |s|
  {
    if s == [] then 0
    else (if s[0] as int > 0xFFFF then 2 else 1) + Utf16Length(s[1..])
  }
}

=== FILE: time_slots.dfy ===
/** The catalogue of clock labels offered by the time-in and time-out
    pickers: every ten minutes of the day, on a 12-hour clock. */
module TimeSlots {
  import opened Values
  import opened Text

  /** Minutes between two consecutive labels. The comment beside the dashboard
      screen's loop speaks of 30-minute intervals; the loop steps by 10. */
  const Step: nat := 10

  function Period(hour: nat): string {
    if hour >= 12 then "PM" else "AM"
  }

  /** `hour % 12 || 12`: midnight and noon read as 12. */
  function DisplayHour(hour: nat): nat {
    if hour % 12 == 0 then 12 else hour % 12
  }

  /** The label `h:mm AM` or `h:mm PM` of one slot. */
  function SlotLabel(hour: nat, minute: nat): string {
    NatDigits(DisplayHour(hour)) + ":" + ZeroPadded(minute, 2) + " " + Period(hour)
  }

  /** Reads a 12-hour label back to minutes since midnight: one or two hour
      digits in 1..12, a colon, two minute digits below 60, a space and the
      period. */
  function ParseClock(s: string): (r: Option<nat>)
    ensures r.Some? ==> r.value < 24 * 60
  {
    if |s| < 7 then None
    else
      var n := |s|;
      var h, m, p := s[..n - 6], s[n - 5..n - 3], s[n - 2..];
      if s[n - 6] == ':' && s[n - 3] == ' ' && |h| <= 2 && AllDigits(h) && AllDigits(m)
         && (p == "AM" || p == "PM")
      then
        var h12, mm := DigitValue(h), DigitValue(m);
        if 1 <= h12 <= 12 && mm < 60 then
          Some((h12 % 12 + (if p == "PM" then 12 else 0)) * 60 + mm)
        else None
      else None
  }

  /** Every label of the day reads back as the time it was made from. */
  lemma SlotLabelRoundTrip(hour: nat, minute: nat)
    requires hour < 24 && minute < 60
    ensures ParseClock(SlotLabel(hour, minute)) == Some(hour * 60 + minute)
  {
    var h, m, p := NatDigits(DisplayHour(hour)), ZeroPadded(minute, 2), Period(hour);
    NatDigitsBelowHundred(DisplayHour(hour));
    ZeroPaddedTwo(minute);
    ZeroPaddedValue(minute, 2);
    DigitValueOfNatDigits(DisplayHour(hour));
    LabelPieces(h, m, p);
    ParseLabel(SlotLabel(hour, minute), h, m, p);
    HourOfLabel(hour);
  }

  /** The displayed hour and the period give back the hour of the day. */
  lemma HourOfLabel(hour: nat)
    requires hour < 24
    ensures DisplayHour(hour) % 12 + (if Period(hour) == "PM" then 12 else 0) == hour
  {
  }

  /** A label whose pieces are well formed reads back as its time. */
  lemma ParseLabel(s: string, h: string, m: string, p: string)
    requires |s| == |h| + 6 && s[..|s| - 6] == h && s[|s| - 6] == ':'
    requires s[|s| - 5..|s| - 3] == m && s[|s| - 3] == ' ' && s[|s| - 2..] == p
    requires 1 <= |h| <= 2 && AllDigits(h) && 1 <= DigitValue(h) <= 12
    requires |m| == 2 && AllDigits(m) && DigitValue(m) < 60
    requires p == "AM" || p == "PM"
    ensures ParseClock(s) == Some((DigitValue(h) % 12 + (if p == "PM" then 12 else 0)) * 60 + DigitValue(m))
  {
  }

  /** Where the pieces of a label sit, counted from its end. */
  lemma LabelPieces(h: string, m: string, p: string)
    requires |m| == 2 && |p| == 2
    ensures var s := h + ":" + m + " " + p;
      var n := |s|;
      n == |h| + 6 && s[..n - 6] == h && s[n - 6] == ':' && s[n - 5..n - 3] == m
      && s[n - 3] == ' ' && s[n - 2..] == p
  {
  }

  /** The label at index `i` of the catalogue, which reads back as ten
      minutes times `i`. */
  ghost predicate SlotAt(i: nat, text: string) {
    text == SlotLabel(i / 6, i % 6 * Step) && ParseClock(text) == Some(Step * i)
  }

  /** `slots` is the first `|slots|` labels of the catalogue. */
  ghost predicate CataloguePrefix(slots: seq<string>) {
    forall i :: 0 <= i < |slots| ==> SlotAt(i, slots[i])
  }

  lemma DivSix(k: nat, h: nat, q: nat)
    requires q < 6 && k == h * 6 + q
    ensures k / 6 == h && k % 6 == q
  {
  }

  /** The label of `hour:minute` sits at index `6 * hour + minute / 10`. */
  lemma SlotAtIndex(k: nat, hour: nat, minute: nat)
    requires hour < 24 && minute < 60 && minute % Step == 0
    requires k == hour * 6 + minute / Step
    ensures SlotAt(k, SlotLabel(hour, minute))
  {
    var q := minute / Step;
    assert 0 <= q < 6 && minute == q * 10;
    DivSix(k, hour, q);
    assert k / 6 == hour && k % 6 * Step == minute;
    assert Step * k == hour * 60 + minute;
    SlotLabelRoundTrip(hour, minute);
  }

  lemma AppendSlot(slots: seq<string>, hour: nat, minute: nat)
    requires CataloguePrefix(slots)
    requires hour < 24 && minute < 60 && minute % Step == 0
    requires |slots| == hour * 6 + minute / Step
    ensures CataloguePrefix(slots + [SlotLabel(hour, minute)])
  {
    var k, x := |slots|, SlotLabel(hour, minute);
    SlotAtIndex(k, hour, minute);
    var t := slots + [x];
    forall i | 0 <= i < |t|
      ensures SlotAt(i, t[i])
    {
      if i < k {
        assert t[i] == slots[i];
      }
    }
  }

  /** `generateTimeSlots`: hours 0..23, minutes 0, 10, ..., 50 within each
      hour. The result has 144 labels in strictly increasing time order. */
  method GenerateTimeSlots() returns (slots: seq<string>)
    ensures |slots| == 24 * (60 / Step)
    ensures forall i :: 0 <= i < |slots| ==> slots[i] == SlotLabel(i / 6, i % 6 * Step)
    ensures forall i :: 0 <= i < |slots| ==> ParseClock(slots[i]) == Some(Step * i)
    ensures forall i, j :: 0 <= i < j < |slots| ==>
      ParseClock(slots[i]).Some? && ParseClock(slots[j]).Some? && ParseClock(slots[i]).value < ParseClock(slots[j]).value
    ensures forall i, j :: 0 <= i < j < |slots| ==> slots[i] != slots[j]
  {
    slots := [];
    var hour := 0;
    while hour < 24
      invariant 0 <= hour <= 24
      invariant |slots| == hour * 6
      invariant CataloguePrefix(slots)
    {
      var minute := 0;
      while minute < 60
        invariant 0 <= minute <= 60 && minute % Step == 0
        invariant |slots| == hour * 6 + minute / Step
        invariant CataloguePrefix(slots)
      {
        AppendSlot(slots, hour, minute);
        slots := slots + [SlotLabel(hour, minute)];
        minute := minute + Step;
      }
      hour := hour + 1;
    }
    forall i, j | 0 <= i < j < |slots|
      ensures slots[i] != slots[j]
    {
      assert ParseClock(slots[i]) != ParseClock(slots[j]);
    }
  }
}

=== FILE: values.dfy ===
/** JavaScript values as the screens see them, with the truthiness rule that
    every `!x` and `x || y` in the screens' code relies on, and the shared shapes of
    a backend reply and a user-visible alert. */
module Values {

  /** The conventional Some/None datatype, used for absent values. */
  datatype Option<+T> = None | Some(value: T)

  /** A dynamically typed value read from a form field or a JSON reply. */
  datatype Value =
    | Undefined
    | Null
    | Bool(b: bool)
    | Num(x: real)
    | NaN
    | Str(s: string)

  /** `!!v` in JavaScript: false for undefined, null, false, 0, NaN and "". */
  predicate Truthy(v: Value) {
    match v
    case Bool(b) => b
    case Num(x) => x != 0.0
    case Str(s) => s != ""
    case _ => false
  }

  /** `a || b` on values: the left operand when it is truthy, else the right one. */
  function Or(a: Value, b: Value): Value {
    if Truthy(a) then a else b
  }

  /** `s || fallback` where `s` is an optional string: an absent or empty
      string falls back. */
  function OrText(s: Option<string>, fallback: string): string {
    if s.Some? && s.value != "" then s.value else fallback
  }

  /** An `Alert.alert(title, message)` call; the message may be undefined. */
  datatype Alert = Alert(title: string, message: Option<string>)

  /** What a backend call produced: a reply object, or an exception thrown
      by the transport before any reply was read. */
  datatype Reply<T> =
    | Replied(success: bool, status: Option<int>, message: Option<string>, data: T)
    | Threw

  /** The one status that makes every screen drop the session. */
  const Unauthorized: int := 401

  predicate IsUnauthorized<T>(r: Reply<T>) {
    r.Replied? && !r.success && r.status == Some(Unauthorized)
  }
}
